=== FILE: README.md ===
# Battle Bomber gameplay core in Dafny

This project models the gameplay core of Battle Bomber, a top-down tank game
written in C++ on raylib. The player's tank stands on a 20 by 15 grid of
40-unit tiles. It fires bullets that break destructible blocks, barrels and
power-up tiles, and walls stop them. The game moves between a main menu, a
level-selection screen, play, game over and win.

Every operation is a pure function on an immutable record. Raylib's clock and
keyboard become parameters: the frame time is a `real` and the key presses of
one frame are booleans. Coordinates are exact `real`s.

Modules, following the source files:

- `Geometry` (`geometry.dfy`): points, rectangles, and the two raylib
  collision tests, defined explicitly. A point lies in a rectangle when it is
  on the left or top edge but not on the right or bottom edge (half-open), as
  raylib's `CheckCollisionPointRec` does. Two rectangles overlap only when
  they share interior area (strict), as `CheckCollisionRecs` does.
- `Bullets` (`bullet.dfy`): `src/Bullet.cpp`.
- `Players` (`player.dfy`): `src/Player.cpp`.
- `Grid` (`grid.dfy`): the tile types of `src/LevelManager.h` and the level
  layout built by `LoadLevel` in `src/LevelManager.cpp`.
- `Collisions` (`collisions.dfy`): `CheckBulletCollisions` in
  `src/LevelManager.cpp`. This is a row-major scan. A hit leaves only the
  column loop, so later rows are still scanned.
- `Levels` (`level.dfy`): the rest of `src/LevelManager.cpp`.
- `Menus` (`menu.dfy`): `src/Menu.cpp`.
- `Games` (`game.dfy`): the state machine in `src/Game.cpp`.

Because cells are half-open, a point lies in at most one cell of the grid
(`Grid.CellsAreDisjoint`). So the inner-only `break` can never give a bullet
a second hit in a later row. `Collisions.ScanAligned` proves this: on a loaded
grid, the full scan has exactly the effect of the one cell containing the
bullet's point.

Some facts about the code as written are proved here, not assumed:

- `Game::Update` never calls `Player::Move` or `Player::Shoot`. A started
  level therefore keeps its layout, has no bullets, and keeps the player on
  the spawn cell (`Games.QuietLevelNeverWon`). Such a level can be neither
  won nor lost by touching a barrel. It ends only by time-out or escape.
- `Menu::Reset` is never called. Once the start option has been chosen, the
  start request survives every later frame (`Games.StartRequestPersists`),
  and with it held the main menu hands over to level selection whatever
  keys are pressed (`Games.MenuStartIsSticky`).
- Level 2 has no power-up tile. Its power-up cell (15, 10) is classified
  destructible first (`Grid.PowerUpPlacement`).

The code has no destruction animation: tiles become destroyed at once. It has
no obstacle check on movement and no diagonal normalisation. Reaching the
exit does not win a level. Barrels are not obstacles; touching one is lethal.

## Model

| member | source | states |
|---|---|---|
| `Bullets.NewBullet` | src/Bullet.cpp:4-6 | A new bullet starts at the given point and direction with speed 5, unflagged, and with the power-up flag it was given |
| `Bullets.Update` | src/Bullet.cpp:8-16 | One step moves by velocity times speed. The bullet is flagged if it was flagged already or is now outside the closed box [0,800]x[0,600]; a point on the edge stays alive. Velocity, speed and power-up never change |
| `Bullets.MarkForDestruction` | src/Bullet.cpp:45-47 | Sets the flag and leaves position, velocity, speed and power-up alone |
| `Bullets.MarkForDestructionIdempotent` | src/Bullet.cpp:45-47 | Marking twice is the same as marking once |
| `Bullets.AdvancePosition` | src/Bullet.cpp:8-10 | After n steps the bullet is at start + n x speed x velocity, with its velocity, speed and power-up unchanged |
| `Bullets.AdvanceFlag` | src/Bullet.cpp:13-15 | After n steps the flag is set iff it was set at the start or some position reached lies outside the field (the flag is monotonic) |
| `Players.NewPlayer` | src/Player.cpp:4-6 | The default constructor's own initialiser list builds the same player as the positioned constructor at (100, 100) |
| `Players.NewPlayerAt` | src/Player.cpp:8-10 | A fresh player faces (0,-1), has no bullets, a timer of 0, cooldown 0.5, speed 3 and no power-up; it is valid and can fire at once |
| `Players.GetRect` | src/Player.cpp:94-96 | The hit box has the player's size and is centred on the player's position, which it contains |
| `Players.SetDirection` | src/Player.cpp:110-114 | The zero vector is ignored; any other direction is adopted; nothing else changes |
| `Players.Move` | src/Player.cpp:53-64 | Position becomes position + input x speed, with no obstacle test. Direction becomes the input iff the input is nonzero. Nothing else changes and a nonzero facing is kept |
| `Players.Shoot` | src/Player.cpp:66-71 | With the timer at or below 0, exactly one bullet is appended (current position, direction and power-up) and the timer is set to the cooldown; otherwise the player is unchanged |
| `Players.ShootTwiceFiresOnce` | src/Player.cpp:66-71 | Two shots in one frame fire at most one bullet |
| `Players.NextShotAfterCooldown` | src/Player.cpp:66-71 | After a shot fires, with non-negative frame times, the next shot fires iff the frames add up to at least 0.5 |
| `Players.TimerExpiresIff` | src/Player.cpp:12-16 | A running timer t has expired after a run of non-negative frames iff the frames add up to at least t |
| `Players.GivePowerUp` | src/Player.cpp:116-119 | Sets the power-up and nothing else, so it is idempotent |
| `Players.UpdateBullets` | src/Player.cpp:73-82 | Survivors are unflagged and never outnumber the input. Every advanced bullet that is not flagged survives |
| `Players.SurvivorsAreAdvanced` | src/Player.cpp:73-82 | Every survivor is an input bullet advanced by one frame |
| `Players.UpdateBulletsConcat` | src/Player.cpp:73-82 | Filtering distributes over concatenation, so survivors keep their relative order |
| `Players.UpdateBulletsInPlace` | src/Player.cpp:73-82 | The source's erase-while-iterating loop computes exactly `UpdateBullets` |
| `Players.Update` | src/Player.cpp:12-19 | The timer drops by the frame time only when positive, then the bullets are updated; nothing else changes and validity is kept |
| `Players.RunPreservesInvariants` | src/Player.cpp:53-119 | Any sequence of moves, turns, shots, frames and power-ups keeps a nonzero facing, a positive cooldown and nonzero bullet velocities. A power-up is never lost |
| `Players.FacingIsLastTurn` | src/Player.cpp:53-57 | After any sequence of operations the player faces the last nonzero direction requested, or its starting direction if there was none |
| `Grid.CellCentre` | src/LevelManager.cpp:49-56 | The corner plus the integer half of the tile size is exactly the centre of the cell and lies inside it, so the integer division loses nothing |
| `Grid.Classify` | src/LevelManager.cpp:22-56 | Each kind is characterised separately. Wall iff border; spawn iff (1,1); exit iff (18,13); otherwise destructible, then barrel ((x+y)%7==0), then power-up, then empty, each by its rule and the failure of the earlier ones |
| `Grid.LoadGrid` | src/LevelManager.cpp:7-61 | 15 rows of 20 intact tiles. Tile (x,y) has rectangle (40x, 40y, 40, 40) and its classified kind |
| `Grid.BorderIsWall` | src/LevelManager.cpp:23-24 | Every border cell is a wall; the spawn and exit cells are interior and carry their markers |
| `Grid.PowerUpPlacement` | src/LevelManager.cpp:37-43 | Level 1 has its only power-up at (5,5); level 2 has none, because (15,10) is destructible |
| `Grid.DestructiblesSeeded` | src/LevelManager.cpp:27-32 | (1,3) is an intact destructible in level 1 and (1,5) in level 2; other level numbers have none |
| `Grid.CellsAreDisjoint` | src/LevelManager.cpp:19 | Two cells containing the same point are the same cell |
| `Grid.AnyTile` | src/LevelManager.cpp:125-134 | The row-by-row early-exit search finds a match iff some tile of the grid satisfies the predicate |
| `Collisions.DestroyAt` | src/LevelManager.cpp:179 | Only the given tile becomes destroyed |
| `Collisions.Blast` | src/LevelManager.cpp:162-177 | A tile ends destroyed iff it was destroyed already or it is a destructible or barrel in the 3x3 block; nothing else changes |
| `Collisions.BlastLoop` | src/LevelManager.cpp:163-176 | The bounds-checked nested offset loops compute exactly `Blast` |
| `Collisions.Hit` | src/LevelManager.cpp:153-181 | The hit tile ends destroyed and the bullet stopped. A power-up is reported iff the tile is a power-up. Other tiles change only by a powered bullet's blast |
| `Collisions.Scan` | src/LevelManager.cpp:146-186 | The scan destroys only breakable tiles that contain the point, or, for a powered bullet, destructibles and barrels next to such a cell. It never restores a tile and keeps layout and flags |
| `Collisions.ScanMarksIff` | src/LevelManager.cpp:146-186 | The bullet is stopped iff some intact wall or breakable tile at or after the start cell contained its point |
| `Collisions.ScanGrantNeedsPowerUp` | src/LevelManager.cpp:157-159 | A power-up is granted only if an intact power-up tile contained the point |
| `Collisions.ScanMiss` | src/LevelManager.cpp:150-152 | A scan over tiles none of which is intact and contains the point changes nothing |
| `Collisions.ScanSkip` | src/LevelManager.cpp:146-152 | Tiles that are destroyed or miss the point are passed without effect |
| `Collisions.ScanAligned` | src/LevelManager.cpp:146-186 | On a cell-aligned grid the whole scan equals the outcome of the one cell containing the point, so there is never a second hit in a later row |
| `Collisions.ScanOutsideGrid` | src/LevelManager.cpp:152 | A point in no cell leaves tiles and bullet untouched |
| `Collisions.ResolveBullet` | src/LevelManager.cpp:143-189 | One bullet only destroys breakable tiles within its reach and restores none |
| `Collisions.ResolveBullets` | src/LevelManager.cpp:140-190 | Every destroyed tile is breakable and in reach of some bullet. Each bullet is either unchanged or flagged |
| `Collisions.ResolveSnoc` | src/LevelManager.cpp:140-190 | Bullets are resolved in list order. One more bullet at the end is scanned against the tiles all earlier bullets left. Its outcome is appended and its grant is added |
| `Collisions.ResolveSnocTiles` | src/LevelManager.cpp:140-190 | Resolving one more bullet at the end leaves the tiles that bullet's own scan leaves on the earlier bullets' tiles. The grant is the earlier grant or that bullet's |
| `Collisions.ResolveSnocBullets` | src/LevelManager.cpp:140-190 | Resolving one more bullet at the end keeps the earlier bullets' outcomes and appends that bullet, flagged iff its scan marks it |
| `Collisions.ScanPowerUpBreakGrants` | src/LevelManager.cpp:157-177 | A scan destroys a power-up tile only by hitting it, which grants the power-up; the blast spares power-ups |
| `Collisions.ResolveGrantNeedsPowerUp` | src/LevelManager.cpp:143-159 | The power-up is granted only if some bullet's point lay in an intact power-up tile |
| `Collisions.ResolvePowerUpGrants` | src/LevelManager.cpp:143-159 | On a grid of cell-aligned tiles, a bullet whose point lies in an intact power-up tile always yields the grant, whatever the bullet order |
| `Collisions.ResolveFlagNeedsStop` | src/LevelManager.cpp:143-185 | A bullet is newly flagged only if its point lay in an intact wall or breakable tile |
| `Collisions.ResolveWallStops` | src/LevelManager.cpp:182-185 | A bullet whose point lies in an intact wall is always flagged, because walls are never destroyed |
| `Collisions.ResolveHitDestroys` | src/LevelManager.cpp:150-180 | On a grid of cell-aligned tiles, an intact breakable tile holding some bullet's point ends destroyed, whatever the bullet order |
| `Levels.NewLevelManager` | src/LevelManager.cpp:5 | No tiles, tile size 40 and the default player |
| `Levels.LoadLevel` | src/LevelManager.cpp:7-61 | The loaded grid, a fresh player at (60,60) and the exit point (740,540) |
| `Levels.AreAllDestructiblesDestroyed` | src/LevelManager.cpp:125-134 | True iff every destructible tile is destroyed; barrels and power-ups are ignored |
| `Levels.CheckCollisionWithBarrel` | src/LevelManager.cpp:192-204 | True iff the 30x30 square centred on the point strictly overlaps an intact barrel |
| `Levels.IsPlayerDead` | src/LevelManager.cpp:136-138 | True iff the player's 30x30 square overlaps an intact barrel |
| `Levels.CheckBulletCollisions` | src/LevelManager.cpp:140-190 | Only breakable tiles in reach of some bullet are destroyed and none is restored. On cell-aligned grids every intact breakable tile holding some bullet's point is destroyed. A bullet is newly flagged only when its point lies in an intact wall or breakable tile, and always when that tile is a wall. The player gains the power-up only when some bullet's point lies in an intact power-up tile; on cell-aligned grids, exactly then. The power-up is never lost. Nothing else changes |
| `Levels.CheckBulletsInOrder` | src/LevelManager.cpp:140-190 | The collision check works through the bullets in list order. A bullet added at the end meets the tiles the others left, its outcome is appended, and it can only add the power-up |
| `Levels.Update` | src/LevelManager.cpp:63-77 | The player update, then the collisions on the advanced bullets. The cooldown timer ticks as in `Player::Update`. Each resulting bullet is the advanced survivor at the same index, kept or flagged, and flagged whenever it lies in a wall. Every destroyed tile is in reach of an advanced bullet. On cell-aligned grids every intact breakable tile holding an advanced bullet's point is destroyed. A new power-up needs an advanced bullet in a power-up tile. Position, facing, the other player fields and the exit point are unchanged. Validity and the power-up are kept |
| `Levels.FreshLevelNotCleared` | src/LevelManager.cpp:125-134 | A freshly loaded level is not cleared iff its number is 1 or 2 |
| `Levels.SpawnIsSafe` | src/LevelManager.cpp:49-52 | The freshly spawned player overlaps only the spawn cell, so it is not dead |
| `Levels.BulletHitsItsCell` | src/LevelManager.cpp:146-186 | On a loaded level a bullet in cell (cy,cx) is stopped iff that tile is a wall or breakable. A power-up is granted iff it is a power-up. Tiles change exactly by that one cell's destruction, plus the blast for a powered bullet |
| `Menus.CppRem` | src/Menu.cpp:7-9 | C++ remainder: it differs from `a` by a multiple of `b`, lies in [0, b) for non-negative `a` and in (-b, 0] for negative `a`, which fixes its value |
| `Menus.NewMenu` | src/Menu.cpp:3 | First option selected, no request |
| `Menus.Update` | src/Menu.cpp:5-19 | Selection stays in {0,1}. Requests are never withdrawn. Enter requests start on option 0 and exit otherwise. A new start request needs enter on option 0, a new exit request enter on option 1. Without arrows the selection stays |
| `Menus.ToggleAtMostOnce` | src/Menu.cpp:6-10 | The selection toggles exactly when down or up is pressed, once even if both are |
| `Menus.EnterRequestsSelection` | src/Menu.cpp:12-18 | On any visit, after enter a request is held iff it was held before or its option is the one selected after this frame's toggle |
| `Menus.Reset` | src/Menu.cpp:42-46 | The result is the constructed menu, whatever came before |
| `Menus.RunKeepsRequests` | src/Menu.cpp:5-19 | Over any run of frames the selection stays valid and requests stay set |
| `Games.InitialGame` | src/Game.cpp:4-5 | Main menu, level 1, time 0, limit 120, not completed, a fresh menu, level manager and player |
| `Games.StartGame` | src/Game.cpp:136-143 | Playing the given level with its loaded grid. The clock is at 0 and the level is not completed. The game's player equals the spawned player at (60,60) |
| `Games.CheckWinCondition` | src/Game.cpp:145-150 | Completion is recorded once the level is cleared. The state becomes WIN iff this is the first clear |
| `Games.CheckLoseCondition` | src/Game.cpp:152-156 | A dead player means GAME_OVER; otherwise nothing changes |
| `Games.Update` | src/Game.cpp:48-95 | Only the menu can ask to close the window. The clock advances only while playing and restarts at 0 when a level starts. The time limit never changes. Only the menu screen changes the menu, and only level selection changes the level number. The end screens keep the level manager, the player and the completion flag. The per-state lemmas below give each arm's full outcome |
| `Games.PlayingOutcome` | src/Game.cpp:70-86 | A playing frame ends in the state of the priority escape > death > first clear > time-out > playing, the reverse of the assignment order. The clock advances by the frame time. Level manager and player are their own updates, the completion flag latches on a cleared level, and the menu, level number and time limit stay |
| `Games.LevelSelectRules` | src/Game.cpp:60-68 | Key 1 starts level 1; else key 2 starts level 2; else escape returns to the menu; else nothing changes |
| `Games.MenuRules` | src/Game.cpp:50-58 | The menu screen moves to level selection iff the updated menu holds a start request. It asks to close iff the menu holds an exit request. Nothing but menu and state changes |
| `Games.MenuStartIsSticky` | src/Game.cpp:50-54 | With a start request already held, the menu screen always hands over to level selection |
| `Games.StartRequestPersists` | src/Menu.cpp:12-18 | Once the start option has been chosen, the request is still held after any sequence of frames, since nothing resets the menu |
| `Games.EndScreenRules` | src/Game.cpp:88-93 | GAME_OVER and WIN go to the menu on enter and otherwise stay |
| `Games.WinAtMostOncePerStart` | src/Game.cpp:145-150 | Once completed, no frame enters WIN again. Only a level start clears the completion |
| `Games.StepCredit` | src/Game.cpp:48-95 | One frame enters WIN only by spending the credit of an uncompleted level being played. Only a level start grants new credit |
| `Games.WinsBoundedByStarts` | src/Game.cpp:48-95 | Over any run of frames, WIN is entered at most once per level start, plus once for a level already in play. From the constructed game, wins never outnumber starts |
| `Games.QuietLevelNeverWon` | src/Game.cpp:70-86 | A started level with no bullets and an unmoved player is never won and never lost to a barrel. It stays so while playing and ends only by time-out or escape |
| `Games.StartIsQuiet` | src/Game.cpp:136-143 | Starting level 1 or 2 gives such a quiet level |

## Left out

- Rendering is not modelled: every `Draw`, `DrawDebug` and `DrawBullets*` function, the texture cache in `src/TextureManager.cpp`, and the player's `color` field, which `GivePowerUp` sets only for drawing.
- The window and loop plumbing is not modelled: `InitWindow`, `SetTargetFPS`, `LoadTextures`, the destructor and `Run`, which `src/Game.cpp` defines twice. `Games.InitialGame` keeps only the fields the constructor initialises.
- `CloseWindow` is an effect outside the model. `Games.Update` reports it in `closeWindow` instead.
- Raylib's `GetFrameTime` and `IsKeyPressed` are parameters (`dt`, `Keys`). `CheckCollisionPointRec` and `CheckCollisionRecs` are defined in `Geometry`.
- Floating-point rounding is not modelled: positions, directions and times are exact reals.
- The tile fields `animating`, `animationTimer` and `animationOffset` are never read or written, so `Grid.Tile` omits them. `UpdateTileAnimations`, `CheckCollisionWithObstacles` and `IsPlayerOnExit` are declared but never defined, so they are not modelled.
- The exit and barrel tests in `LevelManager::Update` have empty bodies. `Levels.Update` records that they have no effect.
- The trivial accessors (`GetPosition`, `SetPosition`, `GetSpeed`, `HasPowerUp`, `GetBullets`, `ShouldDestroy`, `GetPlayer`, `ShouldStartGame`, `ShouldExit`) are field reads or writes on the records.
- The C++ constructor leaves `exitPoint` uninitialised; `Levels.NewLevelManager` uses the origin. `LoadLevel` always sets it before it is read.
- `Collisions.Scan`: on an arbitrary grid it bounds which tiles may change, but does not give the exact outcome. The exact outcome is proved for grids whose tiles occupy their own cells, as every loaded grid does (`Collisions.ScanAligned`, `Levels.BulletHitsItsCell`).
- `Collisions.ScanGrantNeedsPowerUp`: only the "granted implies a power-up was hit" direction is proved on arbitrary grids. The converse fails there: an earlier wall or breakable tile in the same row that also contains the point ends that row before the power-up is reached. It is proved for cell-aligned grids, in `Collisions.ResolvePowerUpGrants` and `Levels.BulletHitsItsCell`.
- `Collisions.ResolveBullets`: a bullet whose point lies in an intact breakable tile is not promised a flag, because an earlier bullet may already have destroyed that tile. Likewise, a powered bullet's blast is not tied to that bullet when an earlier bullet destroyed its tile first. Both depend on bullet order, which `Collisions.ResolveSnoc` states one bullet at a time. The order-independent facts are the lemmas `ResolveFlagNeedsStop`, `ResolveWallStops`, `ResolveGrantNeedsPowerUp`, `ResolvePowerUpGrants` and `ResolveHitDestroys`. On arbitrary grids, whose tiles may overlap, the lower bound on destruction is not stated.
- `Levels.CheckBulletCollisions`: it does not promise a flag to a bullet in a breakable tile, nor tie each blast to a bullet, for the same reason as `Collisions.ResolveBullets`. The grant and the destruction of hit tiles are exact only on cell-aligned grids, which every loaded grid is.
- The blast checks column bounds against the width of the hit tile's row. `Collisions.BlastLoop` needs the grid to be rectangular for this, which every loaded grid is.

=== FILE: bullet.dfy ===
/** A projectile: it moves along a fixed velocity, remembers whether it was
    fired while the player held the power-up, and is flagged for removal when
    it leaves the 800 by 600 play field or hits a tile. */
module Bullets {
  import opened Geometry

  const BulletSpeed: real := 5.0
  const FieldWidth: real := 800.0
  const FieldHeight: real := 600.0

  datatype Bullet = Bullet(
    position: Vec2,
    velocity: Vec2,
    speed: real,
    shouldDestroy: bool,
    hasPowerUp: bool)

  /** A bullet fired from `start` towards `direction`. */
  function NewBullet(start: Vec2, direction: Vec2, powerUp: bool): (b: Bullet)
    ensures b.position == start && b.velocity == direction
    ensures b.speed == BulletSpeed
    ensures !b.shouldDestroy
    ensures b.hasPowerUp == powerUp
  {
    Bullet(start, direction, BulletSpeed, false, powerUp)
  }

  /** Outside the closed box [0, 800] x [0, 600]: a point exactly on an edge
      is still inside the field. */
  predicate OutOfField(p: Vec2) {
    p.x < 0.0 || p.x > FieldWidth || p.y < 0.0 || p.y > FieldHeight
  }

  /** One frame of flight: move by `velocity * speed`, then flag the bullet if
      it is now outside the field. A flag once set stays set. */
  function Update(b: Bullet): (r: Bullet)
    ensures r.position.x == b.position.x + b.velocity.x * b.speed
    ensures r.position.y == b.position.y + b.velocity.y * b.speed
    ensures r.velocity == b.velocity && r.speed == b.speed && r.hasPowerUp == b.hasPowerUp
    ensures r.shouldDestroy <==> b.shouldDestroy || OutOfField(r.position)
    ensures 0.0 <= r.position.x <= FieldWidth && 0.0 <= r.position.y <= FieldHeight
            ==> r.shouldDestroy == b.shouldDestroy
  {
    Step(b)
  }

  /** One frame of flight, as `Update` computes it. `Advance` iterates this
      form, whose unfolding does not carry `Update`'s field bounds. */
  function Step(b: Bullet): Bullet {
    var p := Add(b.position, Scale(b.velocity, b.speed));
    b.(position := p, shouldDestroy := b.shouldDestroy || OutOfField(p))
  }

  /** Flags the bullet for removal and changes nothing else. */
  function MarkForDestruction(b: Bullet): (r: Bullet)
    ensures r.shouldDestroy
    ensures r.position == b.position && r.velocity == b.velocity
    ensures r.speed == b.speed && r.hasPowerUp == b.hasPowerUp
  {
    b.(shouldDestroy := true)
  }

  lemma MarkForDestructionIdempotent(b: Bullet)
    ensures MarkForDestruction(MarkForDestruction(b)) == MarkForDestruction(b)
  {
  }

  /** `n` frames of flight. */
  function Advance(b: Bullet, n: nat): Bullet
    decreases n
  {
    if n == 0 then b else Step(Advance(b, n - 1))
  }

  /** After `n` frames a bullet has travelled exactly `n * speed` along its
      velocity, and its velocity, speed and power-up flag are the ones it was
      fired with. */
  lemma {:induction false} AdvancePosition(b: Bullet, n: nat)
    ensures Advance(b, n).position == Add(b.position, Scale(b.velocity, b.speed * (n as real)))
    ensures Advance(b, n).velocity == b.velocity && Advance(b, n).speed == b.speed
    ensures Advance(b, n).hasPowerUp == b.hasPowerUp
    decreases n
  {
    if n > 0 {
      AdvancePosition(b, n - 1);
      var m := (n - 1) as real;
      var s := b.speed;
      assert s * m + s == s * (n as real);
      Distribute(b.velocity.x, s * m, s);
      Distribute(b.velocity.y, s * m, s);
    }
  }

  lemma Distribute(a: real, u: real, v: real)
    ensures a * u + a * v == a * (u + v)
  {
  }

  /** After `n` frames a bullet is flagged exactly when it was flagged already
      or one of the positions it reached lies outside the field. */
  lemma {:induction false} AdvanceFlag(b: Bullet, n: nat)
    ensures Advance(b, n).shouldDestroy <==>
              b.shouldDestroy || exists k :: 1 <= k <= n && OutOfField(Advance(b, k).position)
    decreases n
  {
    if n > 0 {
      AdvanceFlag(b, n - 1);
      if OutOfField(Advance(b, n).position) {
        assert 1 <= n <= n && OutOfField(Advance(b, n).position);
      }
      if exists k :: 1 <= k <= n && OutOfField(Advance(b, k).position) {
        var k :| 1 <= k <= n && OutOfField(Advance(b, k).position);
        if k < n {
          assert 1 <= k <= n - 1;
        }
      }
    }
  }
}

=== FILE: collisions.dfy ===
/** Bullet against tile resolution. For one bullet the intact tiles are
    scanned in row-major order; the first tile in a row that contains the
    bullet's point and is breakable (destructible, barrel, power-up) is
    destroyed, a wall only stops the bullet, and either way the scan leaves
    that row only: later rows are still scanned. A powered bullet that breaks
    a tile also destroys the destructible tiles and barrels of the 3 by 3
    block around it. */
module Collisions {
  import opened Geometry
  import opened Grid
  import Bullets

  predicate Breakable(k: TileType) {
    k == Destructible || k == Barrel || k == PowerUp
  }

  /** The kinds a powered bullet's blast destroys. */
  predicate Blastable(k: TileType) {
    k == Destructible || k == Barrel
  }

  /** Cell (j, i) lies in the 3 by 3 block centred on cell (y, x). */
  predicate InBlast(j: int, i: int, y: int, x: int) {
    y - 1 <= j <= y + 1 && x - 1 <= i <= x + 1
  }

  /** An intact tile containing the point. */
  predicate Live(t: Tile, p: Vec2) {
    !t.destroyed && PointInRect(p, t.rect)
  }

  /** An intact tile containing the point that a bullet does not pass. */
  predicate Stops(t: Tile, p: Vec2) {
    Live(t, p) && (Breakable(t.kind) || t.kind == Wall)
  }

  /** `h` is `g` with possibly some more tiles destroyed: the shape, every
      kind and every rectangle are the same, and no tile is restored. */
  predicate Evolves(g: Tiles, h: Tiles) {
    && |h| == |g|
    && (forall j | 0 <= j < |g| :: |h[j]| == |g[j]|)
    && forall j, i | 0 <= j < |g| && 0 <= i < |g[j]| ::
         h[j][i] == g[j][i] || h[j][i] == g[j][i].(destroyed := true)
  }

  lemma EvolvesTransitive(g: Tiles, h: Tiles, k: Tiles)
    requires Evolves(g, h) && Evolves(h, k)
    ensures Evolves(g, k)
  {
  }

  lemma EvolvesKeepsRectangular(g: Tiles, h: Tiles)
    requires Evolves(g, h)
    ensures Rectangular(g) ==> Rectangular(h)
    ensures CellAligned(g) ==> CellAligned(h)
  {
  }

  /** `g` with the tile at (y, x) destroyed. */
  function DestroyAt(g: Tiles, y: int, x: int): (r: Tiles)
    requires 0 <= y < |g| && 0 <= x < |g[y]|
    ensures Evolves(g, r)
    ensures r[y][x].destroyed
    ensures forall j, i | 0 <= j < |g| && 0 <= i < |g[j]| && (j, i) != (y, x) :: r[j][i] == g[j][i]
  {
    g[y := g[y][x := g[y][x].(destroyed := true)]]
  }

  /** The blast of a powered bullet around cell (y, x): exactly the
      destructible tiles and barrels of the 3 by 3 block become destroyed;
      walls, power-ups, empty and marker cells and everything outside the
      block are untouched, and cells beyond the grid's edge are skipped. */
  function Blast(g: Tiles, y: int, x: int): (r: Tiles)
    ensures Evolves(g, r)
    ensures forall j, i | 0 <= j < |g| && 0 <= i < |g[j]| ::
              r[j][i].destroyed <==> g[j][i].destroyed || (InBlast(j, i, y, x) && Blastable(g[j][i].kind))
  {
    seq(|g|, j requires 0 <= j < |g| =>
      seq(|g[j]|, i requires 0 <= i < |g[j]| =>
        if InBlast(j, i, y, x) && Blastable(g[j][i].kind) then g[j][i].(destroyed := true) else g[j][i]))
  }

  /** The source's blast: nested loops over the offsets -1..1, skipping
      neighbours outside the grid (columns bounded by the width of row `y`).
      It computes `Blast`. */
  method BlastLoop(g: Tiles, y: int, x: int) returns (r: Tiles)
    requires Rectangular(g) && 0 <= y < |g|
    ensures r == Blast(g, y, x)
  {
    r := g;
    var dy := -1;
    while dy <= 1
      invariant -1 <= dy <= 2
      invariant |r| == |g| && forall j | 0 <= j < |g| :: |r[j]| == |g[j]|
      invariant forall j, i | 0 <= j < |g| && 0 <= i < |g[j]| ::
                  r[j][i] == (if InBlast(j, i, y, x) && j - y < dy && Blastable(g[j][i].kind)
                              then g[j][i].(destroyed := true) else g[j][i])
    {
      var dx := -1;
      while dx <= 1
        invariant -1 <= dx <= 2
        invariant |r| == |g| && forall j | 0 <= j < |g| :: |r[j]| == |g[j]|
        invariant forall j, i | 0 <= j < |g| && 0 <= i < |g[j]| ::
                    r[j][i] == (if InBlast(j, i, y, x) && (j - y < dy || (j - y == dy && i - x < dx))
                                   && Blastable(g[j][i].kind)
                                then g[j][i].(destroyed := true) else g[j][i])
      {
        var nx := x + dx;
        var ny := y + dy;
        if nx >= 0 && nx < |r[y]| && ny >= 0 && ny < |r| {
          var t := r[ny][nx];
          if t.kind == Destructible || t.kind == Barrel {
            r := r[ny := r[ny][nx := t.(destroyed := true)]];
          }
        }
        dx := dx + 1;
      }
      dy := dy + 1;
    }
    var b := Blast(g, y, x);
    assert forall j | 0 <= j < |g| :: r[j] == b[j];
  }

  /** What a scan has done so far: the tiles, whether the bullet has been
      stopped, and whether a power-up tile was broken. */
  datatype ScanState = ScanState(tiles: Tiles, marked: bool, grant: bool)

  /** A bullet breaking the intact breakable tile at (y, x): the blast first
      when the bullet is powered, then the tile itself; the bullet is stopped
      and a broken power-up is reported. */
  function Hit(s: ScanState, powered: bool, y: int, x: int): (r: ScanState)
    requires 0 <= y < |s.tiles| && 0 <= x < |s.tiles[y]|
    ensures Evolves(s.tiles, r.tiles)
    ensures r.tiles[y][x].destroyed && r.marked
    ensures r.grant <==> s.grant || s.tiles[y][x].kind == PowerUp
    ensures forall j, i | 0 <= j < |s.tiles| && 0 <= i < |s.tiles[j]| && (j, i) != (y, x) ::
              r.tiles[j][i].destroyed <==>
                s.tiles[j][i].destroyed || (powered && InBlast(j, i, y, x) && Blastable(s.tiles[j][i].kind))
  {
    var blasted := if powered then Blast(s.tiles, y, x) else s.tiles;
    ScanState(DestroyAt(blasted, y, x), true, s.grant || s.tiles[y][x].kind == PowerUp)
  }

  /** Cell (j, i) comes at or after cell (y, x) in row-major order. */
  predicate AtOrAfter(j: int, i: int, y: int, x: int) {
    j > y || (j == y && i >= x)
  }

  /** Every tile that changed from `g` to `h` is breakable, and lies in the
      3 by 3 block of a cell containing the point; without the power-up it
      contains the point itself. */
  predicate OnlyNear(g: Tiles, h: Tiles, p: Vec2, powered: bool)
    requires Evolves(g, h)
  {
    forall j, i | 0 <= j < |g| && 0 <= i < |g[j]| && h[j][i] != g[j][i] ::
      && Breakable(g[j][i].kind)
      && (PointInRect(p, g[j][i].rect) || (powered && Blastable(g[j][i].kind) && NearPoint(g, p, j, i)))
  }

  predicate NearPoint(g: Tiles, p: Vec2, j: int, i: int) {
    exists jj, ii | 0 <= jj < |g| && 0 <= ii < |g[jj]| :: InBlast(jj, ii, j, i) && PointInRect(p, g[jj][ii].rect)
  }

  lemma OnlyNearTransitive(g: Tiles, h: Tiles, k: Tiles, p: Vec2, powered: bool)
    requires Evolves(g, h) && Evolves(h, k) && Evolves(g, k)
    requires OnlyNear(g, h, p, powered) && OnlyNear(h, k, p, powered)
    ensures OnlyNear(g, k, p, powered)
  {
    forall j, i | 0 <= j < |g| && 0 <= i < |g[j]| && k[j][i] != g[j][i]
      ensures Breakable(g[j][i].kind)
      ensures PointInRect(p, g[j][i].rect) || (powered && Blastable(g[j][i].kind) && NearPoint(g, p, j, i))
    {
      if k[j][i] != h[j][i] && powered && !PointInRect(p, g[j][i].rect) {
        var jj, ii :| 0 <= jj < |h| && 0 <= ii < |h[jj]| && InBlast(jj, ii, j, i) && PointInRect(p, h[jj][ii].rect);
        assert h[jj][ii].rect == g[jj][ii].rect;
      }
    }
  }

  /** The scan of one bullet's point over the tiles from cell (y, x) on, in
      row-major order; a hit ends the current row only. */
  function Scan(s: ScanState, p: Vec2, powered: bool, y: nat, x: nat): (r: ScanState)
    requires y < |s.tiles| ==> x <= |s.tiles[y]|
    ensures Evolves(s.tiles, r.tiles)
    ensures OnlyNear(s.tiles, r.tiles, p, powered)
    ensures s.marked ==> r.marked
    ensures s.grant ==> r.grant
    decreases |s.tiles| - y, if y < |s.tiles| then |s.tiles[y]| - x else 0
  {
    if y >= |s.tiles| then s
    else if x >= |s.tiles[y]| then Scan(s, p, powered, y + 1, 0)
    else
      var t := s.tiles[y][x];
      if t.destroyed || !PointInRect(p, t.rect) then Scan(s, p, powered, y, x + 1)
      else if Breakable(t.kind) then
        var h := Hit(s, powered, y, x);
        var r := Scan(h, p, powered, y + 1, 0);
        assert OnlyNear(s.tiles, h.tiles, p, powered) by {
          forall j, i | 0 <= j < |s.tiles| && 0 <= i < |s.tiles[j]| && h.tiles[j][i] != s.tiles[j][i]
            ensures PointInRect(p, s.tiles[j][i].rect) ||
                    (powered && Blastable(s.tiles[j][i].kind) && NearPoint(s.tiles, p, j, i))
          {
            if (j, i) != (y, x) {
              assert InBlast(y, x, j, i);
            }
          }
        }
        EvolvesTransitive(s.tiles, h.tiles, r.tiles);
        OnlyNearTransitive(s.tiles, h.tiles, r.tiles, p, powered);
        r
      else if t.kind == Wall then Scan(s.(marked := true), p, powered, y + 1, 0)
      else Scan(s, p, powered, y, x + 1)
  }

  /** A scan stops the bullet exactly when it was stopped already or some
      tile from (y, x) on was, at the start of the scan, an intact wall or
      breakable tile containing the point. */
  lemma {:induction false} ScanMarksIff(s: ScanState, p: Vec2, powered: bool, y: nat, x: nat)
    requires y < |s.tiles| ==> x <= |s.tiles[y]|
    ensures Scan(s, p, powered, y, x).marked <==>
              s.marked ||
              exists j, i | 0 <= j < |s.tiles| && 0 <= i < |s.tiles[j]| && AtOrAfter(j, i, y, x) ::
                Stops(s.tiles[j][i], p)
    decreases |s.tiles| - y, if y < |s.tiles| then |s.tiles[y]| - x else 0
  {
    if y >= |s.tiles| {
    } else if x >= |s.tiles[y]| {
      ScanMarksIff(s, p, powered, y + 1, 0);
      if exists j, i | 0 <= j < |s.tiles| && 0 <= i < |s.tiles[j]| && AtOrAfter(j, i, y, x) :: Stops(s.tiles[j][i], p) {
        var j, i :| 0 <= j < |s.tiles| && 0 <= i < |s.tiles[j]| && AtOrAfter(j, i, y, x) && Stops(s.tiles[j][i], p);
        assert AtOrAfter(j, i, y + 1, 0);
      }
    } else {
      var t := s.tiles[y][x];
      if t.destroyed || !PointInRect(p, t.rect) || !(Breakable(t.kind) || t.kind == Wall) {
        ScanMarksIff(s, p, powered, y, x + 1);
        if exists j, i | 0 <= j < |s.tiles| && 0 <= i < |s.tiles[j]| && AtOrAfter(j, i, y, x) :: Stops(s.tiles[j][i], p) {
          var j, i :| 0 <= j < |s.tiles| && 0 <= i < |s.tiles[j]| && AtOrAfter(j, i, y, x) && Stops(s.tiles[j][i], p);
          assert AtOrAfter(j, i, y, x + 1);
        }
      } else {
        assert Stops(s.tiles[y][x], p) && AtOrAfter(y, x, y, x);
      }
    }
  }

  /** A broken power-up is reported only if an intact power-up tile from
      (y, x) on contained the point. */
  lemma {:induction false} ScanGrantNeedsPowerUp(s: ScanState, p: Vec2, powered: bool, y: nat, x: nat)
    requires y < |s.tiles| ==> x <= |s.tiles[y]|
    ensures Scan(s, p, powered, y, x).grant ==>
              s.grant ||
              exists j, i | 0 <= j < |s.tiles| && 0 <= i < |s.tiles[j]| && AtOrAfter(j, i, y, x) ::
                Live(s.tiles[j][i], p) && s.tiles[j][i].kind == PowerUp
    decreases |s.tiles| - y, if y < |s.tiles| then |s.tiles[y]| - x else 0
  {
    if y >= |s.tiles| {
    } else if x >= |s.tiles[y]| {
      ScanGrantNeedsPowerUp(s, p, powered, y + 1, 0);
    } else {
      var t := s.tiles[y][x];
      if t.destroyed || !PointInRect(p, t.rect) {
        ScanGrantNeedsPowerUp(s, p, powered, y, x + 1);
      } else if Breakable(t.kind) {
        var h := Hit(s, powered, y, x);
        ScanGrantNeedsPowerUp(h, p, powered, y + 1, 0);
        if Scan(s, p, powered, y, x).grant && !s.grant && t.kind != PowerUp {
          var j, i :| 0 <= j < |h.tiles| && 0 <= i < |h.tiles[j]| && AtOrAfter(j, i, y + 1, 0) &&
                      Live(h.tiles[j][i], p) && h.tiles[j][i].kind == PowerUp;
          assert Live(s.tiles[j][i], p);
        }
      } else if t.kind == Wall {
        ScanGrantNeedsPowerUp(s.(marked := true), p, powered, y + 1, 0);
      } else {
        ScanGrantNeedsPowerUp(s, p, powered, y, x + 1);
      }
    }
  }

  /** A scan destroys a power-up tile only by hitting it, which reports the
      grant: a powered bullet's blast spares power-ups. */
  lemma {:induction false} ScanPowerUpBreakGrants(s: ScanState, p: Vec2, powered: bool, y: nat, x: nat)
    requires y < |s.tiles| ==> x <= |s.tiles[y]|
    ensures var r := Scan(s, p, powered, y, x);
            forall j, i | 0 <= j < |s.tiles| && 0 <= i < |s.tiles[j]| &&
                          s.tiles[j][i].kind == PowerUp && r.tiles[j][i] != s.tiles[j][i] :: r.grant
    decreases |s.tiles| - y, if y < |s.tiles| then |s.tiles[y]| - x else 0
  {
    if y >= |s.tiles| {
    } else if x >= |s.tiles[y]| {
      ScanPowerUpBreakGrants(s, p, powered, y + 1, 0);
    } else {
      var t := s.tiles[y][x];
      if t.destroyed || !PointInRect(p, t.rect) {
        ScanPowerUpBreakGrants(s, p, powered, y, x + 1);
      } else if Breakable(t.kind) {
        var h := Hit(s, powered, y, x);
        ScanPowerUpBreakGrants(h, p, powered, y + 1, 0);
      } else if t.kind == Wall {
        ScanPowerUpBreakGrants(s.(marked := true), p, powered, y + 1, 0);
      } else {
        ScanPowerUpBreakGrants(s, p, powered, y, x + 1);
      }
    }
  }

  /** A scan over tiles none of which, from (y, x) on, is intact and contains
      the point changes nothing. */
  lemma {:induction false} ScanMiss(s: ScanState, p: Vec2, powered: bool, y: nat, x: nat)
    requires y < |s.tiles| ==> x <= |s.tiles[y]|
    requires forall j, i | 0 <= j < |s.tiles| && 0 <= i < |s.tiles[j]| && AtOrAfter(j, i, y, x) ::
               !Live(s.tiles[j][i], p)
    ensures Scan(s, p, powered, y, x) == s
    decreases |s.tiles| - y, if y < |s.tiles| then |s.tiles[y]| - x else 0
  {
    if y >= |s.tiles| {
    } else if x >= |s.tiles[y]| {
      ScanMiss(s, p, powered, y + 1, 0);
    } else {
      assert AtOrAfter(y, x, y, x);
      ScanMiss(s, p, powered, y, x + 1);
    }
  }

  /** Cell (j, i) comes strictly before cell (ty, tx) in row-major order. */
  predicate Before(j: int, i: int, ty: int, tx: int) {
    j < ty || (j == ty && i < tx)
  }

  /** The scan passes over tiles that are not intact or do not contain the
      point without effect, up to the target cell (ty, tx). */
  lemma {:induction false} ScanSkip(s: ScanState, p: Vec2, powered: bool, y: nat, x: nat, ty: nat, tx: nat)
    requires ty < |s.tiles| && tx < |s.tiles[ty]|
    requires y < |s.tiles| && x <= |s.tiles[y]|
    requires AtOrAfter(ty, tx, y, x)
    requires forall j, i | 0 <= j < |s.tiles| && 0 <= i < |s.tiles[j]| && AtOrAfter(j, i, y, x) && Before(j, i, ty, tx) ::
               !Live(s.tiles[j][i], p)
    ensures Scan(s, p, powered, y, x) == Scan(s, p, powered, ty, tx)
    decreases |s.tiles| - y, |s.tiles[y]| - x
  {
    if (y, x) == (ty, tx) {
    } else if x >= |s.tiles[y]| {
      ScanSkip(s, p, powered, y + 1, 0, ty, tx);
    } else {
      assert AtOrAfter(y, x, y, x) && Before(y, x, ty, tx);
      ScanSkip(s, p, powered, y, x + 1, ty, tx);
    }
  }

  /** The reference outcome for a bullet whose point lies in cell (cy, cx):
      that tile alone decides. An intact breakable tile is hit, an intact
      wall only stops the bullet, anything else lets it through. */
  function CellOutcome(g: Tiles, powered: bool, cy: int, cx: int): ScanState
    requires 0 <= cy < |g| && 0 <= cx < |g[cy]|
  {
    var t := g[cy][cx];
    var s := ScanState(g, false, false);
    if t.destroyed then s
    else if Breakable(t.kind) then Hit(s, powered, cy, cx)
    else if t.kind == Wall then s.(marked := true)
    else s
  }

  /** On a grid whose tiles occupy their own cells, a bullet's scan has the
      effect of the one cell containing its point, as if the scan stopped at
      the first hit: the inner-only break never lets a bullet hit twice,
      because half-open cells never share a point. */
  lemma ScanAligned(g: Tiles, p: Vec2, powered: bool, cy: nat, cx: nat)
    requires CellAligned(g) && cy < |g| && cx < |g[cy]|
    requires PointInRect(p, TileRect(cx, cy))
    ensures Scan(ScanState(g, false, false), p, powered, 0, 0) == CellOutcome(g, powered, cy, cx)
  {
    var s := ScanState(g, false, false);
    forall j, i | 0 <= j < |g| && 0 <= i < |g[j]| && (j, i) != (cy, cx)
      ensures !PointInRect(p, g[j][i].rect)
    {
      if PointInRect(p, g[j][i].rect) {
        CellsAreDisjoint(p, i, j, cx, cy);
      }
    }
    ScanSkip(s, p, powered, 0, 0, cy, cx);
    var t := g[cy][cx];
    if t.destroyed || (!Breakable(t.kind) && t.kind != Wall) {
      ScanMiss(s, p, powered, cy, cx + 1);
    } else if Breakable(t.kind) {
      var h := Hit(s, powered, cy, cx);
      EvolvesKeepsRectangular(g, h.tiles);
      ScanMiss(h, p, powered, cy + 1, 0);
    } else {
      ScanMiss(s.(marked := true), p, powered, cy + 1, 0);
    }
  }

  /** A bullet whose point lies in no tile of an aligned grid (outside the
      grid) changes nothing and is not stopped. */
  lemma ScanOutsideGrid(g: Tiles, p: Vec2, powered: bool)
    requires CellAligned(g)
    requires forall j, i | 0 <= j < |g| && 0 <= i < |g[j]| :: !PointInRect(p, TileRect(i, j))
    ensures Scan(ScanState(g, false, false), p, powered, 0, 0) == ScanState(g, false, false)
  {
    ScanMiss(ScanState(g, false, false), p, powered, 0, 0);
  }

  /** Tile (j, i) of `g` is within reach of bullet `b`: it contains the
      bullet's point, or the bullet is powered and the tile is a destructible
      or barrel next to a cell containing the point. */
  predicate InReach(g: Tiles, j: int, i: int, b: Bullets.Bullet)
    requires 0 <= j < |g| && 0 <= i < |g[j]|
  {
    PointInRect(b.position, g[j][i].rect) ||
    (b.hasPowerUp && Blastable(g[j][i].kind) && NearPoint(g, b.position, j, i))
  }

  /** The scan of one bullet over the whole grid. */
  function ResolveBullet(g: Tiles, b: Bullets.Bullet): (r: ScanState)
    ensures Evolves(g, r.tiles)
    ensures forall j, i | 0 <= j < |g| && 0 <= i < |g[j]| && r.tiles[j][i] != g[j][i] ::
              Breakable(g[j][i].kind) && InReach(g, j, i, b)
  {
    Scan(ScanState(g, false, false), b.position, b.hasPowerUp, 0, 0)
  }

  /** The outcome of resolving all bullets: the tiles, the bullets with their
      stop flags, and whether a power-up tile was broken. */
  datatype Resolution = Resolution(tiles: Tiles, bullets: seq<Bullets.Bullet>, grant: bool)

  /** Resolves the bullets one after another, each against the tiles the
      earlier ones left. Only breakable tiles within reach of some bullet are
      destroyed, no tile is restored, and each bullet is either unchanged or
      flagged for removal. Which bullet stops and whether a power-up is
      broken is stated by the lemmas that follow. */
  function ResolveBullets(g: Tiles, bs: seq<Bullets.Bullet>): (r: Resolution)
    ensures Evolves(g, r.tiles)
    ensures |r.bullets| == |bs|
    ensures forall k | 0 <= k < |bs| ::
              r.bullets[k] == bs[k] || r.bullets[k] == Bullets.MarkForDestruction(bs[k])
    ensures forall j, i | 0 <= j < |g| && 0 <= i < |g[j]| && r.tiles[j][i] != g[j][i] ::
              Breakable(g[j][i].kind) && exists k | 0 <= k < |bs| :: InReach(g, j, i, bs[k])
    decreases |bs|
  {
    if bs == [] then Resolution(g, [], false)
    else
      var s := ResolveBullet(g, bs[0]);
      var b := if s.marked then Bullets.MarkForDestruction(bs[0]) else bs[0];
      var rest := ResolveBullets(s.tiles, bs[1..]);
      EvolvesTransitive(g, s.tiles, rest.tiles);
      ReachStep(g, s.tiles, rest.tiles, bs);
      Resolution(rest.tiles, [b] + rest.bullets, s.grant || rest.grant)
  }

  /** A tile changed over two steps, the first by bullet `bs[0]` and the
      second by the rest of the bullets, is within reach of some bullet. */
  lemma ReachStep(g: Tiles, h: Tiles, k: Tiles, bs: seq<Bullets.Bullet>)
    requires bs != [] && Evolves(g, h) && Evolves(h, k)
    requires forall j, i | 0 <= j < |g| && 0 <= i < |g[j]| && h[j][i] != g[j][i] :: InReach(g, j, i, bs[0])
    requires forall j, i | 0 <= j < |h| && 0 <= i < |h[j]| && k[j][i] != h[j][i] ::
               exists m | 0 <= m < |bs[1..]| :: InReach(h, j, i, bs[1..][m])
    ensures forall j, i | 0 <= j < |g| && 0 <= i < |g[j]| && k[j][i] != g[j][i] ::
              exists m | 0 <= m < |bs| :: InReach(g, j, i, bs[m])
  {
    forall j, i | 0 <= j < |g| && 0 <= i < |g[j]| && k[j][i] != g[j][i]
      ensures exists m | 0 <= m < |bs| :: InReach(g, j, i, bs[m])
    {
      if h[j][i] != g[j][i] {
        assert InReach(g, j, i, bs[0]);
      } else {
        var m :| 0 <= m < |bs[1..]| && InReach(h, j, i, bs[1..][m]);
        ReachSameRects(g, h, j, i, bs[m + 1]);
        assert InReach(g, j, i, bs[m + 1]);
      }
    }
  }

  lemma ReachSameRects(g: Tiles, h: Tiles, j: int, i: int, b: Bullets.Bullet)
    requires Evolves(g, h) && 0 <= j < |g| && 0 <= i < |g[j]|
    ensures InReach(h, j, i, b) ==> InReach(g, j, i, b)
  {
    if InReach(h, j, i, b) && !PointInRect(b.position, g[j][i].rect) {
      var jj, ii :| 0 <= jj < |h| && 0 <= ii < |h[jj]| && InBlast(jj, ii, j, i) && PointInRect(b.position, h[jj][ii].rect);
      assert h[jj][ii].rect == g[jj][ii].rect;
    }
  }

  /** Some bullet's point lies in an intact power-up tile of `g`. */
  predicate PowerUpUnder(g: Tiles, bs: seq<Bullets.Bullet>) {
    exists k, j, i | 0 <= k < |bs| && 0 <= j < |g| && 0 <= i < |g[j]| ::
      Live(g[j][i], bs[k].position) && g[j][i].kind == PowerUp
  }

  /** Some intact wall or breakable tile of `g` contains the point. */
  predicate StopsAt(g: Tiles, p: Vec2) {
    exists j, i | 0 <= j < |g| && 0 <= i < |g[j]| :: Stops(g[j][i], p)
  }

  /** Some intact wall tile of `g` contains the point. */
  predicate WallAt(g: Tiles, p: Vec2) {
    exists j, i | 0 <= j < |g| && 0 <= i < |g[j]| :: Live(g[j][i], p) && g[j][i].kind == Wall
  }

  /** A power-up is granted only if some bullet's point lay in an intact
      power-up tile before any bullet was resolved. */
  lemma {:induction false} ResolveGrantNeedsPowerUp(g: Tiles, bs: seq<Bullets.Bullet>)
    ensures ResolveBullets(g, bs).grant ==> PowerUpUnder(g, bs)
    decreases |bs|
  {
    if bs != [] {
      var s := ResolveBullet(g, bs[0]);
      ScanGrantNeedsPowerUp(ScanState(g, false, false), bs[0].position, bs[0].hasPowerUp, 0, 0);
      ResolveGrantNeedsPowerUp(s.tiles, bs[1..]);
      if ResolveBullets(s.tiles, bs[1..]).grant {
        var k, j, i :| 0 <= k < |bs[1..]| && 0 <= j < |s.tiles| && 0 <= i < |s.tiles[j]| &&
                       Live(s.tiles[j][i], bs[1..][k].position) && s.tiles[j][i].kind == PowerUp;
        assert Live(g[j][i], bs[k + 1].position) && g[j][i].kind == PowerUp;
      }
    }
  }

  /** On a grid whose tiles occupy their own cells, a bullet whose point lies
      in an intact power-up tile always yields the grant: an earlier bullet
      can break that tile only by hitting it, which grants as well. */
  lemma {:induction false} ResolvePowerUpGrants(g: Tiles, bs: seq<Bullets.Bullet>)
    ensures CellAligned(g) && PowerUpUnder(g, bs) ==> ResolveBullets(g, bs).grant
    decreases |bs|
  {
    if bs != [] && CellAligned(g) && PowerUpUnder(g, bs) {
      var k, j, i :| 0 <= k < |bs| && 0 <= j < |g| && 0 <= i < |g[j]| &&
                     Live(g[j][i], bs[k].position) && g[j][i].kind == PowerUp;
      var s := ResolveBullet(g, bs[0]);
      if k == 0 {
        assert g[j][i].rect == TileRect(i, j);
        ScanAligned(g, bs[0].position, bs[0].hasPowerUp, j, i);
      } else if s.tiles[j][i] == g[j][i] {
        EvolvesKeepsRectangular(g, s.tiles);
        assert bs[1..][k - 1] == bs[k];
        assert PowerUpUnder(s.tiles, bs[1..]);
        ResolvePowerUpGrants(s.tiles, bs[1..]);
      } else {
        ScanPowerUpBreakGrants(ScanState(g, false, false), bs[0].position, bs[0].hasPowerUp, 0, 0);
      }
    }
  }

  /** A bullet is newly flagged only if its point lay in an intact wall or
      breakable tile before any bullet was resolved. */
  lemma {:induction false} ResolveFlagNeedsStop(g: Tiles, bs: seq<Bullets.Bullet>, k: nat)
    requires k < |bs|
    ensures ResolveBullets(g, bs).bullets[k].shouldDestroy && !bs[k].shouldDestroy ==>
              StopsAt(g, bs[k].position)
    decreases |bs|
  {
    var s := ResolveBullet(g, bs[0]);
    var rest := ResolveBullets(s.tiles, bs[1..]);
    var b := if s.marked then Bullets.MarkForDestruction(bs[0]) else bs[0];
    assert ResolveBullets(g, bs).bullets == [b] + rest.bullets;
    if k == 0 {
      if b.shouldDestroy && !bs[0].shouldDestroy {
        ScanMarksIff(ScanState(g, false, false), bs[0].position, bs[0].hasPowerUp, 0, 0);
        var j, i :| 0 <= j < |g| && 0 <= i < |g[j]| && AtOrAfter(j, i, 0, 0) && Stops(g[j][i], bs[0].position);
      }
    } else {
      assert bs[1..][k - 1] == bs[k];
      ResolveFlagNeedsStop(s.tiles, bs[1..], k - 1);
      if rest.bullets[k - 1].shouldDestroy && !bs[k].shouldDestroy {
        var j, i :| 0 <= j < |s.tiles| && 0 <= i < |s.tiles[j]| && Stops(s.tiles[j][i], bs[k].position);
        assert Stops(g[j][i], bs[k].position);
      }
    }
  }

  /** A bullet whose point lies in an intact wall tile is always flagged:
      walls are never destroyed, so no earlier bullet can clear the way. */
  lemma {:induction false} ResolveWallStops(g: Tiles, bs: seq<Bullets.Bullet>, k: nat)
    requires k < |bs|
    ensures WallAt(g, bs[k].position) ==> ResolveBullets(g, bs).bullets[k].shouldDestroy
    decreases |bs|
  {
    var s := ResolveBullet(g, bs[0]);
    var rest := ResolveBullets(s.tiles, bs[1..]);
    var b := if s.marked then Bullets.MarkForDestruction(bs[0]) else bs[0];
    assert ResolveBullets(g, bs).bullets == [b] + rest.bullets;
    if WallAt(g, bs[k].position) {
      var j, i :| 0 <= j < |g| && 0 <= i < |g[j]| && Live(g[j][i], bs[k].position) && g[j][i].kind == Wall;
      if k == 0 {
        ScanMarksIff(ScanState(g, false, false), bs[0].position, bs[0].hasPowerUp, 0, 0);
        assert Stops(g[j][i], bs[0].position) && AtOrAfter(j, i, 0, 0);
      } else {
        assert s.tiles[j][i] == g[j][i];
        assert bs[1..][k - 1] == bs[k];
        assert WallAt(s.tiles, bs[1..][k - 1].position);
        ResolveWallStops(s.tiles, bs[1..], k - 1);
      }
    }
  }

  /** On a grid whose tiles occupy their own cells, an intact breakable tile
      holding some bullet's point ends destroyed, whatever the bullet order:
      either an earlier bullet destroyed it already, or it is still intact
      when that bullet's scan reaches its cell. */
  lemma {:induction false} ResolveHitDestroys(g: Tiles, bs: seq<Bullets.Bullet>, k: nat, j: nat, i: nat)
    requires CellAligned(g) && k < |bs| && j < |g| && i < |g[j]|
    requires Live(g[j][i], bs[k].position) && Breakable(g[j][i].kind)
    ensures ResolveBullets(g, bs).tiles[j][i].destroyed
    decreases |bs|
  {
    var s := ResolveBullet(g, bs[0]);
    var rest := ResolveBullets(s.tiles, bs[1..]);
    assert ResolveBullets(g, bs).tiles == rest.tiles;
    if k == 0 {
      assert g[j][i].rect == TileRect(i, j);
      ScanAligned(g, bs[0].position, bs[0].hasPowerUp, j, i);
      assert s.tiles[j][i].destroyed;
    } else if s.tiles[j][i] != g[j][i] {
      assert s.tiles[j][i].destroyed;
    } else {
      EvolvesKeepsRectangular(g, s.tiles);
      assert bs[1..][k - 1] == bs[k];
      ResolveHitDestroys(s.tiles, bs[1..], k - 1, j, i);
    }
  }

  /** The tiles and the grant part of `ResolveSnoc`. */
  lemma {:induction false} ResolveSnocTiles(g: Tiles, bs: seq<Bullets.Bullet>, b: Bullets.Bullet)
    ensures var r := ResolveBullets(g, bs);
            var s := ResolveBullet(r.tiles, b);
            var r' := ResolveBullets(g, bs + [b]);
            r'.tiles == s.tiles && r'.grant == (r.grant || s.grant)
    decreases |bs|
  {
    if bs == [] {
      assert bs + [b] == [b];
    } else {
      var s0 := ResolveBullet(g, bs[0]);
      assert (bs + [b])[0] == bs[0] && (bs + [b])[1..] == bs[1..] + [b];
      ResolveSnocTiles(s0.tiles, bs[1..], b);
    }
  }

  /** The bullet part of `ResolveSnoc`. */
  lemma {:induction false} ResolveSnocBullets(g: Tiles, bs: seq<Bullets.Bullet>, b: Bullets.Bullet)
    ensures var r := ResolveBullets(g, bs);
            var s := ResolveBullet(r.tiles, b);
            ResolveBullets(g, bs + [b]).bullets == r.bullets + [if s.marked then Bullets.MarkForDestruction(b) else b]
    decreases |bs|
  {
    if bs == [] {
      assert bs + [b] == [b];
    } else {
      var s0 := ResolveBullet(g, bs[0]);
      var b0 := if s0.marked then Bullets.MarkForDestruction(bs[0]) else bs[0];
      var rest := ResolveBullets(s0.tiles, bs[1..]);
      var x := if ResolveBullet(rest.tiles, b).marked then Bullets.MarkForDestruction(b) else b;
      assert (bs + [b])[0] == bs[0] && (bs + [b])[1..] == bs[1..] + [b];
      ResolveSnocBullets(s0.tiles, bs[1..], b);
      assert [b0] + (rest.bullets + [x]) == ([b0] + rest.bullets) + [x];
    }
  }

  /** Bullets are resolved in list order: resolving one more bullet at the
      end scans it against the tiles all earlier bullets left, appends its
      outcome, and adds its grant. */
  lemma ResolveSnoc(g: Tiles, bs: seq<Bullets.Bullet>, b: Bullets.Bullet)
    ensures var r := ResolveBullets(g, bs);
            var s := ResolveBullet(r.tiles, b);
            ResolveBullets(g, bs + [b]) ==
              Resolution(s.tiles, r.bullets + [if s.marked then Bullets.MarkForDestruction(b) else b], r.grant || s.grant)
  {
    ResolveSnocTiles(g, bs, b);
    ResolveSnocBullets(g, bs, b);
  }
}

=== FILE: game.dfy ===
/** The game's screen state machine: main menu, level selection, playing,
    game over and win. The key presses and the frame time of one frame are
    parameters; closing the window is reported, not performed. */
module Games {
  import opened Geometry
  import Grid
  import Menus
  import Levels
  import Players

  const LevelTimeLimit: real := 120.0

  datatype GameState = Menu | Playing | LevelSelect | GameOver | Win

  /** The keys pressed during one frame. */
  datatype Keys = Keys(one: bool, two: bool, escape: bool, enter: bool, up: bool, down: bool)

  /** The game holds its own copy of the player, taken from the level manager
      when a level starts; afterwards the two are updated independently. */
  datatype Game = Game(
    state: GameState,
    menu: Menus.Menu,
    levelManager: Levels.LevelManager,
    player: Players.Player,
    currentLevel: int,
    gameTime: real,
    levelTimeLimit: real,
    levelCompleted: bool)

  /** The game after one frame, and whether the frame asked to close the
      window. */
  datatype Frame = Frame(game: Game, closeWindow: bool)

  /** The state the constructor sets up: the main menu, level 1, no time
      spent, a limit of 120 and no level completed. */
  function InitialGame(): (g: Game)
    ensures g.state == Menu && g.currentLevel == 1 && g.gameTime == 0.0
    ensures g.levelTimeLimit == LevelTimeLimit && !g.levelCompleted
    ensures g.menu == Menus.NewMenu()
    ensures g.levelManager == Levels.NewLevelManager() && g.player == Players.NewPlayer()
  {
    Game(Menu, Menus.NewMenu(), Levels.NewLevelManager(), Players.NewPlayer(), 1, 0.0, LevelTimeLimit, false)
  }

  /** Loads `level`, copies the spawned player, restarts the clock, clears
      the completion flag and starts playing. */
  function StartGame(g: Game, level: int): (r: Game)
    ensures r.state == Playing && r.currentLevel == level
    ensures r.gameTime == 0.0 && !r.levelCompleted
    ensures r.levelManager.tiles == Grid.LoadGrid(level)
    ensures r.player == r.levelManager.player == Players.NewPlayerAt(Vec2(60.0, 60.0))
    ensures r.menu == g.menu && r.levelTimeLimit == g.levelTimeLimit
  {
    var lm := Levels.LoadLevel(g.levelManager, level);
    g.(currentLevel := level, levelManager := lm, player := lm.player,
       gameTime := 0.0, levelCompleted := false, state := Playing)
  }

  /** The first time the level is cleared after a start, the game is won. */
  function CheckWinCondition(g: Game): (r: Game)
    ensures r.levelCompleted <==> g.levelCompleted || Levels.AreAllDestructiblesDestroyed(g.levelManager)
    ensures r.state == Win <==>
              (!g.levelCompleted && Levels.AreAllDestructiblesDestroyed(g.levelManager)) || g.state == Win
    ensures r.state != Win ==> r.state == g.state
    ensures r == g.(state := r.state, levelCompleted := r.levelCompleted)
  {
    if !g.levelCompleted && Levels.AreAllDestructiblesDestroyed(g.levelManager) then
      g.(levelCompleted := true, state := Win)
    else g
  }

  /** A player touching an intact barrel loses. */
  function CheckLoseCondition(g: Game): (r: Game)
    ensures Levels.IsPlayerDead(g.levelManager) ==> r.state == GameOver
    ensures !Levels.IsPlayerDead(g.levelManager) ==> r == g
    ensures r == g.(state := r.state)
  {
    if Levels.IsPlayerDead(g.levelManager) then g.(state := GameOver) else g
  }

  /** One playing frame: the clock advances, both players and the level are
      updated, then time-out, win, lose and escape are checked in that order,
      a later check overriding an earlier one. */
  function PlayFrame(g: Game, escape: bool, dt: real): Game {
    var g1 := g.(gameTime := g.gameTime + dt,
                 player := Players.Update(g.player, dt),
                 levelManager := Levels.Update(g.levelManager, dt));
    var g2 := if g1.gameTime >= g1.levelTimeLimit then g1.(state := GameOver) else g1;
    var g3 := CheckWinCondition(g2);
    var g4 := CheckLoseCondition(g3);
    if escape then g4.(state := Menu) else g4
  }

  /** One frame of the game. */
  function Update(g: Game, keys: Keys, dt: real): (r: Frame)
    ensures r.closeWindow ==> g.state == Menu
    ensures r.game.gameTime ==
              if g.state == Playing then g.gameTime + dt
              else if r.game.state == Playing then 0.0
              else g.gameTime
    ensures r.game.levelTimeLimit == g.levelTimeLimit
    ensures g.state != Menu ==> r.game.menu == g.menu
    ensures g.state != LevelSelect ==> r.game.currentLevel == g.currentLevel
    ensures g.state != LevelSelect && g.state != Playing ==>
              && r.game.levelManager == g.levelManager
              && r.game.player == g.player
              && r.game.levelCompleted == g.levelCompleted
  {
    match g.state
    case Menu =>
      var m := Menus.Update(g.menu, keys.down, keys.up, keys.enter);
      Frame(g.(menu := m, state := if m.startGame then LevelSelect else Menu), m.exitGame)
    case LevelSelect =>
      var next :=
        if keys.one then StartGame(g, 1)
        else if keys.two then StartGame(g, 2)
        else if keys.escape then g.(state := Menu)
        else g;
      Frame(next, false)
    case Playing =>
      Frame(PlayFrame(g, keys.escape, dt), false)
    case GameOver =>
      Frame(if keys.enter then g.(state := Menu) else g, false)
    case Win =>
      Frame(if keys.enter then g.(state := Menu) else g, false)
  }

  /** Which state a playing frame ends in, read from the highest-priority
      condition down: escape, death, a first clear of the level, time-out. */
  function PlayingVerdict(escape: bool, dead: bool, firstClear: bool, timedOut: bool): GameState {
    if escape then Menu
    else if dead then GameOver
    else if firstClear then Win
    else if timedOut then GameOver
    else Playing
  }

  /** A playing frame ends in the state `PlayingVerdict` names for the
      updated level, advances the clock by the frame time, and records a
      clear of the level. */
  lemma PlayingOutcome(g: Game, keys: Keys, dt: real)
    requires g.state == Playing
    ensures var lm := Levels.Update(g.levelManager, dt);
            var r := Update(g, keys, dt).game;
            && r.state == PlayingVerdict(keys.escape, Levels.IsPlayerDead(lm),
                                         !g.levelCompleted && Levels.AreAllDestructiblesDestroyed(lm),
                                         g.gameTime + dt >= g.levelTimeLimit)
            && r.gameTime == g.gameTime + dt
            && r.levelManager == lm
            && r.player == Players.Update(g.player, dt)
            && (r.levelCompleted <==> g.levelCompleted || Levels.AreAllDestructiblesDestroyed(lm))
            && !Update(g, keys, dt).closeWindow
            && r.menu == g.menu && r.currentLevel == g.currentLevel
            && r.levelTimeLimit == g.levelTimeLimit
  {
  }

  /** On the level-selection screen key 1 wins over key 2, which wins over
      escape; with none of them the screen stays. */
  lemma LevelSelectRules(g: Game, keys: Keys, dt: real)
    requires g.state == LevelSelect
    ensures var r := Update(g, keys, dt).game;
            && (keys.one ==> r == StartGame(g, 1))
            && (!keys.one && keys.two ==> r == StartGame(g, 2))
            && (!keys.one && !keys.two && keys.escape ==> r == g.(state := Menu))
            && (!keys.one && !keys.two && !keys.escape ==> r == g)
  {
  }

  /** The main menu moves to level selection exactly when the menu holds a
      start request after its update, and asks to close the window exactly
      when it holds an exit request. */
  lemma MenuRules(g: Game, keys: Keys, dt: real)
    requires g.state == Menu
    ensures var m := Menus.Update(g.menu, keys.down, keys.up, keys.enter);
            var r := Update(g, keys, dt);
            && r.game.menu == m
            && (r.game.state == LevelSelect <==> m.startGame)
            && (r.game.state == Menu <==> !m.startGame)
            && (r.closeWindow <==> m.exitGame)
            && r.game.(menu := g.menu, state := g.state) == g
  {
  }

  /** Once the start option has been chosen, the main menu hands over to
      level selection whatever keys are pressed; `StartRequestPersists`
      extends this to every later visit. */
  lemma MenuStartIsSticky(g: Game, keys: Keys, dt: real)
    requires g.state == Menu && g.menu.startGame
    ensures Update(g, keys, dt).game.state == LevelSelect
  {
  }

  /** The game-over and win screens return to the main menu on enter and
      otherwise stay as they are. */
  lemma EndScreenRules(g: Game, keys: Keys, dt: real)
    requires g.state == GameOver || g.state == Win
    ensures Update(g, keys, dt).game == (if keys.enter then g.(state := Menu) else g)
  {
  }

  /** The win screen is reached at most once per level start: once the level
      is marked completed, no frame enters the win state again, and only a
      new start clears the mark. */
  lemma WinAtMostOncePerStart(g: Game, keys: Keys, dt: real)
    requires g.levelCompleted && g.state != Win
    ensures Update(g, keys, dt).game.state != Win
    ensures !Update(g, keys, dt).game.levelCompleted ==>
              g.state == LevelSelect && (keys.one || keys.two)
  {
  }

  /** A level being played without bullets, still in its loaded layout, with
      the player on the spawn cell. */
  predicate Quiet(g: Game) {
    && (g.currentLevel == 1 || g.currentLevel == 2)
    && g.levelManager.tiles == Grid.LoadGrid(g.currentLevel)
    && g.levelManager.player.bullets == []
    && g.levelManager.player.position == Vec2(60.0, 60.0)
  }

  /** Nothing in a frame moves the player or fires a bullet, so a level just
      started stays quiet: no frame of it can be won or end in death; it ends
      only by time-out or escape. */
  lemma QuietLevelNeverWon(g: Game, keys: Keys, dt: real)
    requires g.state == Playing && Quiet(g)
    ensures var r := Update(g, keys, dt).game;
            && r.state != Win
            && (r.state == GameOver ==> r.gameTime >= r.levelTimeLimit)
            && (r.state == Playing ==> Quiet(r))
  {
    var lm := Levels.Update(g.levelManager, dt);
    var loaded := Levels.LoadLevel(g.levelManager, g.currentLevel);
    assert Players.UpdateBullets([]) == [];
    assert lm.tiles == loaded.tiles;
    Levels.FreshLevelNotCleared(g.levelManager, g.currentLevel);
    Levels.SpawnIsSafe(g.levelManager, g.currentLevel);
    assert Levels.IsPlayerDead(lm) == Levels.IsPlayerDead(loaded);
    PlayingOutcome(g, keys, dt);
  }

  /** Starting level 1 or 2 gives a quiet level. */
  lemma StartIsQuiet(g: Game, level: int)
    requires level == 1 || level == 2
    ensures Quiet(StartGame(g, level))
  {
  }

  /** A run of frames, each given by its keys and its frame time. */
  function RunGame(g: Game, frames: seq<(Keys, real)>): Game
    decreases |frames|
  {
    if frames == [] then g else RunGame(Update(g, frames[0].0, frames[0].1).game, frames[1..])
  }

  /** The menu is never reset, so a start request, once made, survives any
      sequence of frames: every later visit to the main menu goes straight on
      to level selection. */
  lemma {:induction false} StartRequestPersists(g: Game, frames: seq<(Keys, real)>)
    requires g.menu.startGame
    ensures RunGame(g, frames).menu.startGame
    decreases |frames|
  {
    if frames != [] {
      var keys := frames[0].0;
      assert Update(g, keys, frames[0].1).game.menu.startGame;
      StartRequestPersists(Update(g, keys, frames[0].1).game, frames[1..]);
    }
  }

  /** The frame starts a level. */
  predicate StartsLevel(g: Game, keys: Keys) {
    g.state == LevelSelect && (keys.one || keys.two)
  }

  /** The frame moves the game into the win state. */
  predicate EntersWin(g: Game, keys: Keys, dt: real) {
    g.state != Win && Update(g, keys, dt).game.state == Win
  }

  /** How many frames of a run start a level. */
  function Starts(g: Game, frames: seq<(Keys, real)>): nat
    decreases |frames|
  {
    if frames == [] then 0
    else (if StartsLevel(g, frames[0].0) then 1 else 0) +
         Starts(Update(g, frames[0].0, frames[0].1).game, frames[1..])
  }

  /** How many frames of a run enter the win state. */
  function WinEntries(g: Game, frames: seq<(Keys, real)>): nat
    decreases |frames|
  {
    if frames == [] then 0
    else (if EntersWin(g, frames[0].0, frames[0].1) then 1 else 0) +
         WinEntries(Update(g, frames[0].0, frames[0].1).game, frames[1..])
  }

  /** A level being played that can still be won. */
  function WinCredit(g: Game): nat {
    if g.state == Playing && !g.levelCompleted then 1 else 0
  }

  lemma StepCredit(g: Game, keys: Keys, dt: real)
    ensures var next := Update(g, keys, dt).game;
            (if EntersWin(g, keys, dt) then 1 else 0) + WinCredit(next) <=
              WinCredit(g) + (if StartsLevel(g, keys) then 1 else 0)
  {
    if g.state == Playing {
      PlayingOutcome(g, keys, dt);
    }
  }

  /** Over any run of frames the game enters the win state at most once per
      level start, plus once for a level being played and not yet completed
      when the run begins. From the constructed game, wins never outnumber
      starts. */
  lemma {:induction false} WinsBoundedByStarts(g: Game, frames: seq<(Keys, real)>)
    ensures WinEntries(g, frames) + WinCredit(RunGame(g, frames)) <= WinCredit(g) + Starts(g, frames)
    ensures g == InitialGame() ==> WinEntries(g, frames) <= Starts(g, frames)
    decreases |frames|
  {
    if frames != [] {
      StepCredit(g, frames[0].0, frames[0].1);
      WinsBoundedByStarts(Update(g, frames[0].0, frames[0].1).game, frames[1..]);
    }
  }
}

=== FILE: geometry.dfy ===
/** Plane geometry shared by every part of the game: points and vectors,
    axis-aligned rectangles, and the two collision tests the game borrows from
    its graphics library. Coordinates are exact reals; floating-point rounding
    is not modelled. */
module Geometry {

  /** A point or a displacement. */
  datatype Vec2 = Vec2(x: real, y: real)

  /** An axis-aligned rectangle given by its top-left corner and its size. */
  datatype Rect = Rect(x: real, y: real, width: real, height: real)

  const Origin: Vec2 := Vec2(0.0, 0.0)

  function Add(a: Vec2, b: Vec2): Vec2 {
    Vec2(a.x + b.x, a.y + b.y)
  }

  function Scale(v: Vec2, k: real): Vec2 {
    Vec2(v.x * k, v.y * k)
  }

  predicate IsZero(v: Vec2) {
    v.x == 0.0 && v.y == 0.0
  }

  /** The point-in-rectangle test. The left and top edges belong to the
      rectangle, the right and bottom edges do not (half-open), so rectangles
      that tile the plane never both contain one point. */
  predicate PointInRect(p: Vec2, r: Rect) {
    r.x <= p.x < r.x + r.width && r.y <= p.y < r.y + r.height
  }

  /** The rectangle-overlap test. It is strict: rectangles that only share an
      edge or a corner do not overlap. */
  predicate RecsOverlap(a: Rect, b: Rect) {
    a.x < b.x + b.width && b.x < a.x + a.width &&
    a.y < b.y + b.height && b.y < a.y + a.height
  }

  /** The rectangle of the given size whose centre is `c`. */
  function CenteredRect(c: Vec2, size: Vec2): (r: Rect)
    ensures r.width == size.x && r.height == size.y
    ensures r.x + r.width / 2.0 == c.x && r.y + r.height / 2.0 == c.y
    ensures size.x > 0.0 && size.y > 0.0 ==> PointInRect(c, r)
  {
    Rect(c.x - size.x / 2.0, c.y - size.y / 2.0, size.x, size.y)
  }
}

=== FILE: grid.dfy ===
/** The level's tile grid: tile kinds, the procedural 20 by 15 layout of the
    two levels, and a row-major search over the tiles. */
module Grid {
  import opened Geometry

  const TileSize: int := 40
  const Width: int := 20
  const Height: int := 15

  datatype TileType = Empty | Wall | Destructible | Barrel | PowerUp | SpawnPoint | ExitPoint

  /** A cell of the grid. A destroyed tile stays in the grid but no longer
      takes part in any collision. */
  datatype Tile = Tile(kind: TileType, rect: Rect, destroyed: bool)

  /** Rows of tiles, indexed `[y][x]`. */
  type Tiles = seq<seq<Tile>>

  /** The square occupied by the cell in column `x` and row `y`. */
  function TileRect(x: int, y: int): Rect {
    Rect((TileSize * x) as real, (TileSize * y) as real, TileSize as real, TileSize as real)
  }

  /** The centre of the cell in column `x` and row `y`, found as the source
      does: corner plus half the tile size in integer arithmetic. The tile
      size is even, so the integer half loses nothing. */
  function CellCentre(x: int, y: int): (c: Vec2)
    ensures c.x == TileRect(x, y).x + TileRect(x, y).width / 2.0
    ensures c.y == TileRect(x, y).y + TileRect(x, y).height / 2.0
    ensures PointInRect(c, TileRect(x, y))
  {
    Vec2(TileRect(x, y).x + (TileSize / 2) as real, TileRect(x, y).y + (TileSize / 2) as real)
  }

  /** All rows have the same length. */
  predicate Rectangular(g: Tiles) {
    forall j | 0 <= j < |g| :: |g[j]| == |g[0]|
  }

  /** Rectangular, and every tile occupies its own cell. */
  predicate CellAligned(g: Tiles) {
    && Rectangular(g)
    && forall j, i | 0 <= j < |g| && 0 <= i < |g[j]| :: g[j][i].rect == TileRect(i, j)
  }

  predicate IsBorder(x: int, y: int) {
    x == 0 || y == 0 || x == Width - 1 || y == Height - 1
  }

  predicate IsSpawn(x: int, y: int) {
    x == 1 && y == 1
  }

  predicate IsExit(x: int, y: int) {
    x == Width - 2 && y == Height - 2
  }

  predicate DestructibleRule(x: nat, y: nat, level: int) {
    (level == 1 && (x + y) % 4 == 0) || (level == 2 && (x * y) % 5 == 0)
  }

  predicate BarrelRule(x: nat, y: nat) {
    (x + y) % 7 == 0
  }

  predicate PowerUpRule(x: nat, y: nat, level: int) {
    (x == 5 && y == 5 && level == 1) || (x == 15 && y == 10 && level == 2)
  }

  /** The kind of the cell at column `x`, row `y` of level `level`: the first
      matching rule among border, destructible, barrel and power-up decides,
      and the spawn and exit cells are then overwritten. Each kind is
      characterised on its own below. */
  function Classify(x: nat, y: nat, level: int): (k: TileType)
    ensures k == Wall <==> IsBorder(x, y)
    ensures k == SpawnPoint <==> IsSpawn(x, y)
    ensures k == ExitPoint <==> IsExit(x, y)
    ensures k == Destructible <==>
              !IsBorder(x, y) && !IsSpawn(x, y) && !IsExit(x, y) && DestructibleRule(x, y, level)
    ensures k == Barrel <==>
              !IsBorder(x, y) && !IsSpawn(x, y) && !IsExit(x, y) &&
              !DestructibleRule(x, y, level) && BarrelRule(x, y)
    ensures k == PowerUp <==>
              !IsBorder(x, y) && !IsSpawn(x, y) && !IsExit(x, y) &&
              !DestructibleRule(x, y, level) && !BarrelRule(x, y) && PowerUpRule(x, y, level)
    ensures k == Empty <==>
              !IsBorder(x, y) && !IsSpawn(x, y) && !IsExit(x, y) &&
              !DestructibleRule(x, y, level) && !BarrelRule(x, y) && !PowerUpRule(x, y, level)
  {
    var base :=
      if IsBorder(x, y) then Wall
      else if (x + y) % 4 == 0 && level == 1 then Destructible
      else if (x * y) % 5 == 0 && level == 2 then Destructible
      else if (x + y) % 7 == 0 then Barrel
      else if x == 5 && y == 5 && level == 1 then PowerUp
      else if x == 15 && y == 10 && level == 2 then PowerUp
      else Empty;
    if IsSpawn(x, y) then SpawnPoint
    else if IsExit(x, y) then ExitPoint
    else base
  }

  /** The freshly loaded grid of level `level`: 15 rows of 20 intact tiles,
      each in its own cell with the kind `Classify` gives it. */
  function LoadGrid(level: int): (g: Tiles)
    ensures |g| == Height
    ensures forall j | 0 <= j < Height :: |g[j]| == Width
    ensures CellAligned(g)
    ensures forall j, i | 0 <= j < Height && 0 <= i < Width ::
              g[j][i] == Tile(Classify(i, j, level), TileRect(i, j), false)
  {
    seq(Height, y requires 0 <= y < Height =>
      seq(Width, x requires 0 <= x < Width => Tile(Classify(x, y, level), TileRect(x, y), false)))
  }

  /** The whole border ring is wall, and the spawn and exit cells lie inside
      it, so their overrides never open a gap in the ring. */
  lemma BorderIsWall(level: int)
    ensures forall j, i | 0 <= j < Height && 0 <= i < Width && IsBorder(i, j) ::
              LoadGrid(level)[j][i].kind == Wall
    ensures !IsBorder(1, 1) && !IsBorder(Width - 2, Height - 2)
    ensures LoadGrid(level)[1][1].kind == SpawnPoint
    ensures LoadGrid(level)[Height - 2][Width - 2].kind == ExitPoint
  {
  }

  /** Level 1 has its power-up at (5, 5). Level 2 has none: its power-up cell
      (15, 10) is claimed first by the destructible rule, 15 * 10 being a
      multiple of 5. */
  lemma PowerUpPlacement()
    ensures LoadGrid(1)[5][5].kind == PowerUp
    ensures forall j, i | 0 <= j < Height && 0 <= i < Width :: LoadGrid(1)[j][i].kind == PowerUp ==> i == 5 && j == 5
    ensures LoadGrid(2)[10][15].kind == Destructible
    ensures forall j, i | 0 <= j < Height && 0 <= i < Width :: LoadGrid(2)[j][i].kind != PowerUp
  {
  }

  /** Levels 1 and 2 start with intact destructible tiles, at (1, 3) and
      (1, 5) respectively; any other level number has none. */
  lemma DestructiblesSeeded(level: int)
    ensures level == 1 ==> LoadGrid(level)[3][1] == Tile(Destructible, TileRect(1, 3), false)
    ensures level == 2 ==> LoadGrid(level)[5][1] == Tile(Destructible, TileRect(1, 5), false)
    ensures level != 1 && level != 2 ==>
              forall j, i | 0 <= j < Height && 0 <= i < Width :: LoadGrid(level)[j][i].kind != Destructible
  {
  }

  /** Cells never overlap: a point lies in the cell of at most one column and
      one row. */
  lemma CellsAreDisjoint(p: Vec2, x: int, y: int, x': int, y': int)
    requires PointInRect(p, TileRect(x, y)) && PointInRect(p, TileRect(x', y'))
    ensures x == x' && y == y'
  {
  }

  /** Whether some tile in a row satisfies `p`, scanning left to right. */
  function AnyInRow(row: seq<Tile>, p: Tile -> bool): (r: bool)
    ensures r <==> exists i | 0 <= i < |row| :: p(row[i])
    decreases |row|
  {
    if row == [] then false
    else if p(row[0]) then true
    else
      var rest := AnyInRow(row[1..], p);
      assert rest <==> exists i | 1 <= i < |row| :: p(row[i]) by {
        if rest {
          var i :| 0 <= i < |row[1..]| && p(row[1..][i]);
          assert p(row[i + 1]);
        }
      }
      rest
  }

  /** Whether some tile of the grid satisfies `p`, scanning row by row and
      stopping at the first match. */
  function AnyTile(g: Tiles, p: Tile -> bool): (r: bool)
    ensures r <==> exists j, i | 0 <= j < |g| && 0 <= i < |g[j]| :: p(g[j][i])
    decreases |g|
  {
    if g == [] then false
    else if AnyInRow(g[0], p) then true
    else
      var rest := AnyTile(g[1..], p);
      assert rest <==> exists j, i | 1 <= j < |g| && 0 <= i < |g[j]| :: p(g[j][i]) by {
        if rest {
          var j, i :| 0 <= j < |g[1..]| && 0 <= i < |g[1..][j]| && p(g[1..][j][i]);
          assert p(g[j + 1][i]);
        }
      }
      rest
  }
}

=== FILE: level.dfy ===
/** The level manager: the tile grid of the current level, the player it
    spawns, and the exit point; bullet collisions and the death and win
    predicates the game reads every frame. */
module Levels {
  import opened Geometry
  import opened Grid
  import Collisions
  import Bullets
  import Players

  /** Half the side of the player's square used against barrels. */
  const PlayerHalf: real := 15.0

  datatype LevelManager = LevelManager(
    tiles: Tiles,
    player: Players.Player,
    exitPoint: Vec2,
    tileSize: int)

  /** Before any level is loaded: no tiles, the default player, and a tile
      size of 40. */
  function NewLevelManager(): (lm: LevelManager)
    ensures lm.tiles == [] && lm.tileSize == TileSize
    ensures lm.player == Players.NewPlayer()
  {
    LevelManager([], Players.NewPlayer(), Origin, TileSize)
  }

  /** Builds the grid of `level`, spawns a fresh player at the centre of the
      spawn cell (1, 1), which is (60, 60), and records the centre of the exit
      cell (18, 13), which is (740, 540). */
  function LoadLevel(lm: LevelManager, level: int): (r: LevelManager)
    ensures r.tiles == LoadGrid(level)
    ensures r.player == Players.NewPlayerAt(Vec2(60.0, 60.0))
    ensures r.exitPoint == Vec2(740.0, 540.0)
    ensures r.tileSize == lm.tileSize
  {
    lm.(tiles := LoadGrid(level),
        player := Players.NewPlayerAt(CellCentre(1, 1)),
        exitPoint := CellCentre(Width - 2, Height - 2))
  }

  /** The level is cleared when no destructible tile is intact; barrels and
      power-ups do not count. */
  function AreAllDestructiblesDestroyed(lm: LevelManager): (r: bool)
    ensures r <==> forall j, i | 0 <= j < |lm.tiles| && 0 <= i < |lm.tiles[j]| ::
                     lm.tiles[j][i].kind == Destructible ==> lm.tiles[j][i].destroyed
  {
    !AnyTile(lm.tiles, (t: Tile) => t.kind == Destructible && !t.destroyed)
  }

  /** The 30 by 30 square centred on `pos`. */
  function PlayerBox(pos: Vec2): Rect {
    Rect(pos.x - PlayerHalf, pos.y - PlayerHalf, 2.0 * PlayerHalf, 2.0 * PlayerHalf)
  }

  /** Whether the 30 by 30 square centred on `pos` overlaps an intact barrel. */
  function CheckCollisionWithBarrel(lm: LevelManager, pos: Vec2): (r: bool)
    ensures r <==> exists j, i | 0 <= j < |lm.tiles| && 0 <= i < |lm.tiles[j]| ::
                     && !lm.tiles[j][i].destroyed
                     && lm.tiles[j][i].kind == Barrel
                     && RecsOverlap(PlayerBox(pos), lm.tiles[j][i].rect)
  {
    AnyTile(lm.tiles, (t: Tile) => !t.destroyed && t.kind == Barrel && RecsOverlap(PlayerBox(pos), t.rect))
  }

  /** The player dies by touching an intact barrel. */
  function IsPlayerDead(lm: LevelManager): (r: bool)
    ensures r <==> exists j, i | 0 <= j < |lm.tiles| && 0 <= i < |lm.tiles[j]| ::
                     && !lm.tiles[j][i].destroyed
                     && lm.tiles[j][i].kind == Barrel
                     && RecsOverlap(PlayerBox(lm.player.position), lm.tiles[j][i].rect)
  {
    CheckCollisionWithBarrel(lm, lm.player.position)
  }

  /** Resolves every bullet of the player against the tiles. Only breakable
      tiles within reach of some bullet are destroyed and none is restored;
      each bullet is kept or flagged for removal, flagged only when its point
      lies in an intact wall or breakable tile, and always when that tile is
      a wall; the player gains the power-up only when some bullet's point
      lies in an intact power-up tile, and on a grid whose tiles occupy
      their own cells always then; on such a grid every intact breakable
      tile holding some bullet's point ends destroyed; nothing else
      changes. */
  function CheckBulletCollisions(lm: LevelManager): (r: LevelManager)
    ensures Collisions.Evolves(lm.tiles, r.tiles)
    ensures forall j, i | 0 <= j < |lm.tiles| && 0 <= i < |lm.tiles[j]| && r.tiles[j][i] != lm.tiles[j][i] ::
              && Collisions.Breakable(lm.tiles[j][i].kind)
              && exists k | 0 <= k < |lm.player.bullets| :: Collisions.InReach(lm.tiles, j, i, lm.player.bullets[k])
    ensures |r.player.bullets| == |lm.player.bullets|
    ensures forall k | 0 <= k < |lm.player.bullets| ::
              r.player.bullets[k] == lm.player.bullets[k] ||
              r.player.bullets[k] == Bullets.MarkForDestruction(lm.player.bullets[k])
    ensures forall k | 0 <= k < |lm.player.bullets| &&
                       r.player.bullets[k].shouldDestroy && !lm.player.bullets[k].shouldDestroy ::
              Collisions.StopsAt(lm.tiles, lm.player.bullets[k].position)
    ensures forall k | 0 <= k < |lm.player.bullets| && Collisions.WallAt(lm.tiles, lm.player.bullets[k].position) ::
              r.player.bullets[k].shouldDestroy
    ensures CellAligned(lm.tiles) ==>
              forall k, j, i | 0 <= k < |lm.player.bullets| && 0 <= j < |lm.tiles| && 0 <= i < |lm.tiles[j]| &&
                               Collisions.Live(lm.tiles[j][i], lm.player.bullets[k].position) &&
                               Collisions.Breakable(lm.tiles[j][i].kind) ::
                r.tiles[j][i].destroyed
    ensures lm.player.hasPowerUp ==> r.player.hasPowerUp
    ensures r.player.hasPowerUp ==>
              lm.player.hasPowerUp || Collisions.PowerUpUnder(lm.tiles, lm.player.bullets)
    ensures CellAligned(lm.tiles) ==>
              (r.player.hasPowerUp <==> lm.player.hasPowerUp || Collisions.PowerUpUnder(lm.tiles, lm.player.bullets))
    ensures r.player == lm.player.(bullets := r.player.bullets, hasPowerUp := r.player.hasPowerUp)
    ensures r == lm.(tiles := r.tiles, player := r.player)
  {
    forall k, j, i | CellAligned(lm.tiles) && 0 <= k < |lm.player.bullets| && 0 <= j < |lm.tiles| &&
                     0 <= i < |lm.tiles[j]| && Collisions.Live(lm.tiles[j][i], lm.player.bullets[k].position) &&
                     Collisions.Breakable(lm.tiles[j][i].kind) {
      Collisions.ResolveHitDestroys(lm.tiles, lm.player.bullets, k, j, i);
    }
    Collisions.ResolveGrantNeedsPowerUp(lm.tiles, lm.player.bullets);
    Collisions.ResolvePowerUpGrants(lm.tiles, lm.player.bullets);
    forall k | 0 <= k < |lm.player.bullets| {
      Collisions.ResolveFlagNeedsStop(lm.tiles, lm.player.bullets, k);
    }
    forall k | 0 <= k < |lm.player.bullets| {
      Collisions.ResolveWallStops(lm.tiles, lm.player.bullets, k);
    }
    var res := Collisions.ResolveBullets(lm.tiles, lm.player.bullets);
    var p := if res.grant then Players.GivePowerUp(lm.player) else lm.player;
    lm.(tiles := res.tiles, player := p.(bullets := res.bullets))
  }

  /** Bullets are checked in list order: with one more bullet at the end,
      that bullet is checked against the tiles the others left, its outcome
      is appended, and it can only add the power-up. */
  lemma CheckBulletsInOrder(lm: LevelManager, b: Bullets.Bullet)
    ensures var r1 := CheckBulletCollisions(lm);
            var s := Collisions.ResolveBullet(r1.tiles, b);
            var r := CheckBulletCollisions(lm.(player := lm.player.(bullets := lm.player.bullets + [b])));
            && r.tiles == s.tiles
            && r.player.bullets == r1.player.bullets + [if s.marked then Bullets.MarkForDestruction(b) else b]
            && (r.player.hasPowerUp <==> r1.player.hasPowerUp || s.grant)
  {
    Collisions.ResolveSnoc(lm.tiles, lm.player.bullets, b);
  }

  /** One frame: the player's own update (cooldown and bullets), then the
      bullet collisions, resolved against the bullets as they stand after
      this frame's move. The exit and barrel tests the source makes here
      have empty bodies and so no effect. */
  function Update(lm: LevelManager, dt: real): (r: LevelManager)
    ensures Collisions.Evolves(lm.tiles, r.tiles)
    ensures r.exitPoint == lm.exitPoint && r.tileSize == lm.tileSize
    ensures lm.player.fireTimer > 0.0 ==> r.player.fireTimer == lm.player.fireTimer - dt
    ensures lm.player.fireTimer <= 0.0 ==> r.player.fireTimer == lm.player.fireTimer
    ensures r.player == lm.player.(fireTimer := r.player.fireTimer, bullets := r.player.bullets,
                                   hasPowerUp := r.player.hasPowerUp)
    ensures var adv := Players.UpdateBullets(lm.player.bullets);
            && |r.player.bullets| == |adv|
            && forall k | 0 <= k < |adv| ::
                 r.player.bullets[k] == adv[k] || r.player.bullets[k] == Bullets.MarkForDestruction(adv[k])
    ensures var adv := Players.UpdateBullets(lm.player.bullets);
            forall k | 0 <= k < |adv| && Collisions.WallAt(lm.tiles, adv[k].position) ::
              r.player.bullets[k].shouldDestroy
    ensures var adv := Players.UpdateBullets(lm.player.bullets);
            forall j, i | 0 <= j < |lm.tiles| && 0 <= i < |lm.tiles[j]| && r.tiles[j][i] != lm.tiles[j][i] ::
              exists k | 0 <= k < |adv| :: Collisions.InReach(lm.tiles, j, i, adv[k])
    ensures var adv := Players.UpdateBullets(lm.player.bullets);
            CellAligned(lm.tiles) ==>
              forall k, j, i | 0 <= k < |adv| && 0 <= j < |lm.tiles| && 0 <= i < |lm.tiles[j]| &&
                               Collisions.Live(lm.tiles[j][i], adv[k].position) &&
                               Collisions.Breakable(lm.tiles[j][i].kind) ::
                r.tiles[j][i].destroyed
    ensures lm.player.hasPowerUp ==> r.player.hasPowerUp
    ensures r.player.hasPowerUp ==>
              lm.player.hasPowerUp || Collisions.PowerUpUnder(lm.tiles, Players.UpdateBullets(lm.player.bullets))
    ensures Players.Valid(lm.player) ==> Players.Valid(r.player)
  {
    var r := CheckBulletCollisions(lm.(player := Players.Update(lm.player, dt)));
    assert Players.Valid(lm.player) ==> Players.Valid(r.player) by {
      if Players.Valid(lm.player) {
        var q := Players.Update(lm.player, dt);
        forall k | 0 <= k < |r.player.bullets| ensures !IsZero(r.player.bullets[k].velocity) {
          assert r.player.bullets[k].velocity == q.bullets[k].velocity;
        }
      }
    }
    r
  }

  /** A freshly loaded level 1 or 2 is not yet cleared, and a level with any
      other number has no destructible tile and counts as cleared at once. */
  lemma FreshLevelNotCleared(lm: LevelManager, level: int)
    ensures !AreAllDestructiblesDestroyed(LoadLevel(lm, level)) <==> level == 1 || level == 2
  {
    DestructiblesSeeded(level);
    var g: Tiles := LoadLevel(lm, level).tiles;
    if level == 1 {
      assert g[3][1].kind == Destructible && !g[3][1].destroyed;
    } else if level == 2 {
      assert g[5][1].kind == Destructible && !g[5][1].destroyed;
    }
  }

  /** The spawned player is safe: its square, centred on (60, 60), overlaps
      only the spawn cell, which is no barrel. */
  lemma SpawnIsSafe(lm: LevelManager, level: int)
    ensures !IsPlayerDead(LoadLevel(lm, level))
  {
    var r := LoadLevel(lm, level);
    var g: Tiles := r.tiles;
    forall j, i | 0 <= j < |g| && 0 <= i < |g[j]| && RecsOverlap(PlayerBox(r.player.position), g[j][i].rect)
      ensures g[j][i].kind == SpawnPoint
    {
      assert (40 * i) as real < 75.0 && 45.0 < (40 * i + 40) as real;
      assert i == 1;
      assert (40 * j) as real < 75.0 && 45.0 < (40 * j + 40) as real;
      assert j == 1;
    }
  }

  /** On a loaded level a plain bullet whose point lies in cell (cy, cx)
      destroys that tile alone if it is intact and breakable, and changes no
      tile otherwise; a powered one also destroys the destructible tiles and
      barrels around it. */
  lemma BulletHitsItsCell(lm: LevelManager, level: int, b: Bullets.Bullet, cy: nat, cx: nat)
    requires cy < Height && cx < Width
    requires PointInRect(b.position, TileRect(cx, cy))
    ensures var g: Tiles := LoadLevel(lm, level).tiles;
            var s := Collisions.ResolveBullet(g, b);
            && (s.marked <==> g[cy][cx].kind == Wall || Collisions.Breakable(g[cy][cx].kind))
            && (s.grant <==> g[cy][cx].kind == PowerUp)
            && (!b.hasPowerUp && Collisions.Breakable(g[cy][cx].kind) ==>
                  s.tiles == Collisions.DestroyAt(g, cy, cx))
            && (b.hasPowerUp && Collisions.Breakable(g[cy][cx].kind) ==>
                  s.tiles == Collisions.DestroyAt(Collisions.Blast(g, cy, cx), cy, cx))
            && (!Collisions.Breakable(g[cy][cx].kind) ==> s.tiles == g)
  {
    var g: Tiles := LoadLevel(lm, level).tiles;
    Collisions.ScanAligned(g, b.position, b.hasPowerUp, cy, cx);
  }
}

=== FILE: menu.dfy ===
/** The main menu: two options (start, exit) chosen with the arrow keys and
    confirmed with enter. Key presses of the frame are parameters. */
module Menus {

  datatype Menu = Menu(selectedOption: int, startGame: bool, exitGame: bool)

  /** The remainder of C++ integer division, which truncates toward zero. */
  function CppRem(a: int, b: int): (r: int)
    requires b > 0
    ensures a >= 0 ==> 0 <= r < b && r == a % b
    ensures a < 0 ==> -b < r <= 0
    ensures exists q :: a == b * q + r
  {
    if a >= 0 then
      assert a == b * (a / b) + a % b;
      a % b
    else
      assert -a == b * ((-a) / b) + (-a) % b;
      assert a == b * (-((-a) / b)) + -((-a) % b);
      -((-a) % b)
  }

  predicate Valid(m: Menu) {
    m.selectedOption == 0 || m.selectedOption == 1
  }

  /** The constructed menu: the first option selected, nothing requested. */
  function NewMenu(): (m: Menu)
    ensures Valid(m) && m.selectedOption == 0 && !m.startGame && !m.exitGame
  {
    Menu(0, false, false)
  }

  /** One frame. Down moves the selection on, up (only when down is not
      pressed) moves it back, and enter then requests the selected action.
      A request once made is never withdrawn. */
  function Update(m: Menu, down: bool, up: bool, enter: bool): (r: Menu)
    ensures Valid(m) ==> Valid(r)
    ensures m.startGame ==> r.startGame
    ensures m.exitGame ==> r.exitGame
    ensures enter && r.selectedOption == 0 ==> r.startGame
    ensures enter && r.selectedOption != 0 ==> r.exitGame
    ensures r.startGame && !m.startGame ==> enter && r.selectedOption == 0
    ensures r.exitGame && !m.exitGame ==> enter && r.selectedOption != 0
    ensures !enter ==> r.startGame == m.startGame && r.exitGame == m.exitGame
    ensures !down && !up ==> r.selectedOption == m.selectedOption
  {
    var sel :=
      if down then CppRem(m.selectedOption + 1, 2)
      else if up then CppRem(m.selectedOption - 1 + 2, 2)
      else m.selectedOption;
    var started := m.startGame || (enter && sel == 0);
    var exiting := m.exitGame || (enter && sel != 0);
    Menu(sel, started, exiting)
  }

  /** On a valid menu each update toggles the selection at most once, when
      down or up is pressed (pressing both toggles once, not twice). */
  lemma ToggleAtMostOnce(m: Menu, down: bool, up: bool, enter: bool)
    requires Valid(m)
    ensures Update(m, down, up, enter).selectedOption ==
              if down || up then 1 - m.selectedOption else m.selectedOption
  {
  }

  /** Enter requests exactly the option that is selected after this frame's
      toggle: start on the first option, exit on the second. */
  lemma EnterRequestsSelection(m: Menu, down: bool, up: bool)
    requires Valid(m)
    ensures var r := Update(m, down, up, true);
            var sel := if down || up then 1 - m.selectedOption else m.selectedOption;
            && (r.startGame <==> m.startGame || sel == 0)
            && (r.exitGame <==> m.exitGame || sel == 1)
  {
  }

  /** Back to the constructed state, whatever came before. */
  function Reset(m: Menu): (r: Menu)
    ensures r == NewMenu()
    ensures Valid(r) && !r.startGame && !r.exitGame
  {
    m.(startGame := false, exitGame := false, selectedOption := 0)
  }

  /** Menu updates over a run of frames, each given as (down, up, enter). */
  function Run(m: Menu, keys: seq<(bool, bool, bool)>): Menu
    decreases |keys|
  {
    if keys == [] then m else Run(Update(m, keys[0].0, keys[0].1, keys[0].2), keys[1..])
  }

  /** Over any run of frames the selection stays in {0, 1} and neither
      request is ever cleared; only `Reset` clears them. */
  lemma {:induction false} RunKeepsRequests(m: Menu, keys: seq<(bool, bool, bool)>)
    requires Valid(m)
    ensures Valid(Run(m, keys))
    ensures m.startGame ==> Run(m, keys).startGame
    ensures m.exitGame ==> Run(m, keys).exitGame
    decreases |keys|
  {
    if keys != [] {
      RunKeepsRequests(Update(m, keys[0].0, keys[0].1, keys[0].2), keys[1..]);
    }
  }
}

=== FILE: player.dfy ===
/** The player's tank: position, facing, fire-rate limiting, the bullets it
    owns and the power-up flag that later bullets inherit. Every operation is
    a pure function from the old player to the new one; the frame time that
    the game reads from its clock is an explicit parameter. */
module Players {
  import opened Geometry
  import Bullets

  const PlayerSpeed: real := 3.0
  const FireCooldown: real := 0.5
  const PlayerSize: Vec2 := Vec2(30.0, 30.0)
  const DefaultStart: Vec2 := Vec2(100.0, 100.0)
  /** Facing up the screen. */
  const InitialDirection: Vec2 := Vec2(0.0, -1.0)

  datatype Player = Player(
    position: Vec2,
    size: Vec2,
    speed: real,
    direction: Vec2,
    bullets: seq<Bullets.Bullet>,
    fireCooldown: real,
    fireTimer: real,
    hasPowerUp: bool)

  /** A value that may be absent. */
  datatype Option<T> = None | Some(value: T)

  /** What every reachable player satisfies: it faces a nonzero direction, its
      cooldown is positive, and none of its bullets has a zero velocity. */
  predicate Valid(p: Player) {
    && !IsZero(p.direction)
    && p.fireCooldown > 0.0
    && forall i | 0 <= i < |p.bullets| :: !IsZero(p.bullets[i].velocity)
  }

  /** A player standing at `start`, facing up, ready to fire, without bullets
      and without the power-up. */
  function NewPlayerAt(start: Vec2): (p: Player)
    ensures p.position == start && p.direction == InitialDirection
    ensures p.bullets == [] && p.fireTimer == 0.0 && !p.hasPowerUp
    ensures p.speed == PlayerSpeed && p.fireCooldown == FireCooldown
    ensures Valid(p) && CanFire(p)
  {
    Player(start, PlayerSize, PlayerSpeed, InitialDirection, [], FireCooldown, 0.0, false)
  }

  /** The player built by the default constructor, at (100, 100). */
  function NewPlayer(): (p: Player)
    ensures p.position == DefaultStart
    ensures p == NewPlayerAt(DefaultStart)
  {
    Player(DefaultStart, PlayerSize, PlayerSpeed, InitialDirection, [], FireCooldown, 0.0, false)
  }

  /** The 30 by 30 hit box centred on the player. */
  function GetRect(p: Player): (r: Rect)
    ensures r.width == p.size.x && r.height == p.size.y
    ensures r.x + r.width / 2.0 == p.position.x && r.y + r.height / 2.0 == p.position.y
    ensures p.size == PlayerSize ==> PointInRect(p.position, r)
  {
    CenteredRect(p.position, p.size)
  }

  /** Turns to face `dir` unless it is the zero vector. */
  function SetDirection(p: Player, dir: Vec2): (r: Player)
    ensures r.direction == (if IsZero(dir) then p.direction else dir)
    ensures r == p.(direction := r.direction)
    ensures Valid(p) ==> Valid(r)
  {
    if IsZero(dir) then p else p.(direction := dir)
  }

  /** Moves by `input * speed` unconditionally (there is no obstacle test) and
      faces `input` when it is nonzero. */
  function Move(p: Player, input: Vec2): (r: Player)
    ensures r.position == Add(p.position, Scale(input, p.speed))
    ensures r.direction == (if IsZero(input) then p.direction else input)
    ensures r == p.(position := r.position, direction := r.direction)
    ensures Valid(p) ==> Valid(r)
  {
    var faced := if input.x != 0.0 || input.y != 0.0 then p.(direction := input) else p;
    faced.(position := Add(p.position, Scale(input, p.speed)))
  }

  predicate CanFire(p: Player) {
    p.fireTimer <= 0.0
  }

  /** Fires one bullet from the current position in the facing direction,
      carrying the current power-up flag, and restarts the cooldown; while the
      cooldown runs, nothing happens. */
  function Shoot(p: Player): (r: Player)
    ensures CanFire(p) ==>
              && |r.bullets| == |p.bullets| + 1
              && r.bullets[..|p.bullets|] == p.bullets
              && r.bullets[|p.bullets|] == Bullets.NewBullet(p.position, p.direction, p.hasPowerUp)
              && r.fireTimer == p.fireCooldown
              && r == p.(bullets := r.bullets, fireTimer := r.fireTimer)
    ensures !CanFire(p) ==> r == p
    ensures Valid(p) ==> Valid(r)
  {
    if p.fireTimer <= 0.0 then
      p.(bullets := p.bullets + [Bullets.NewBullet(p.position, p.direction, p.hasPowerUp)],
         fireTimer := p.fireCooldown)
    else p
  }

  /** Grants the power-up; bullets already in flight keep their own flag. */
  function GivePowerUp(p: Player): (r: Player)
    ensures r.hasPowerUp
    ensures r == p.(hasPowerUp := true)
  {
    p.(hasPowerUp := true)
  }

  /** The cooldown timer after one frame: it only runs while positive. */
  function TickTimer(t: real, dt: real): (r: real)
    ensures t > 0.0 ==> r == t - dt
    ensures t <= 0.0 ==> r == t
  {
    if t > 0.0 then t - dt else t
  }

  /** Every bullet advanced by one frame, in order. */
  function AdvanceAll(bs: seq<Bullets.Bullet>): (r: seq<Bullets.Bullet>)
    ensures |r| == |bs|
    ensures forall i | 0 <= i < |bs| :: r[i] == Bullets.Update(bs[i])
  {
    seq(|bs|, i requires 0 <= i < |bs| => Bullets.Update(bs[i]))
  }

  /** Advances every bullet once and drops the ones that are then flagged:
      no survivor is flagged, and every advanced bullet that is not flagged
      survives. `SurvivorsAreAdvanced` gives the converse. */
  function UpdateBullets(bs: seq<Bullets.Bullet>): (r: seq<Bullets.Bullet>)
    ensures |r| <= |bs|
    ensures forall j | 0 <= j < |r| :: !r[j].shouldDestroy
    ensures forall i | 0 <= i < |bs| && !Bullets.Update(bs[i]).shouldDestroy ::
              Bullets.Update(bs[i]) in r
    decreases |bs|
  {
    if bs == [] then []
    else
      var b := Bullets.Update(bs[0]);
      var rest := UpdateBullets(bs[1..]);
      if b.shouldDestroy then rest else [b] + rest
  }

  /** Every survivor is one of the input bullets advanced by one frame. */
  lemma {:induction false} SurvivorsAreAdvanced(bs: seq<Bullets.Bullet>)
    ensures forall j | 0 <= j < |UpdateBullets(bs)| :: UpdateBullets(bs)[j] in AdvanceAll(bs)
    decreases |bs|
  {
    if bs != [] {
      SurvivorsAreAdvanced(bs[1..]);
      assert AdvanceAll(bs[1..]) == AdvanceAll(bs)[1..];
    }
  }

  /** Survivors keep their relative order: the bullets of an earlier part of
      the list come out before those of a later part. */
  lemma {:induction false} UpdateBulletsConcat(a: seq<Bullets.Bullet>, b: seq<Bullets.Bullet>)
    ensures UpdateBullets(a + b) == UpdateBullets(a) + UpdateBullets(b)
    decreases |a|
  {
    if a != [] {
      assert (a + b)[1..] == a[1..] + b;
      UpdateBulletsConcat(a[1..], b);
    } else {
      assert a + b == b;
    }
  }

  /** The erase-while-iterating loop of the source, on a sequence: the bullet
      at `i` is advanced and either erased (the next bullet moves into slot
      `i`) or kept (the cursor moves on). It computes `UpdateBullets`. */
  method UpdateBulletsInPlace(bs: seq<Bullets.Bullet>) returns (r: seq<Bullets.Bullet>)
    ensures r == UpdateBullets(bs)
  {
    r := bs;
    var i := 0;
    ghost var k := 0;
    while i < |r|
      invariant 0 <= i <= |r|
      invariant 0 <= k <= |bs|
      invariant r[i..] == bs[k..]
      invariant r[..i] == UpdateBullets(bs[..k])
      decreases |r| - i
    {
      var b := Bullets.Update(r[i]);
      var done := r[..i];
      var rest := r[i + 1..];
      assert r[i] == bs[k] && rest == bs[k + 1..] by {
        assert r[i..][0] == bs[k..][0];
        assert r[i..][1..] == bs[k..][1..];
      }
      UpdateBulletsConcat(bs[..k], [bs[k]]);
      assert bs[..k + 1] == bs[..k] + [bs[k]];
      assert [bs[k]][1..] == [];
      assert UpdateBullets([bs[k]]) == if b.shouldDestroy then [] else [b];
      if b.shouldDestroy {
        r := done + rest;
        assert r[..i] == done && r[i..] == rest;
      } else {
        r := done + [b] + rest;
        assert r[..i + 1] == done + [b] && r[i + 1..] == rest;
        i := i + 1;
      }
      k := k + 1;
    }
    assert bs[..k] == bs;
  }

  /** One frame: the cooldown runs, then the bullets are advanced and the
      flagged ones are dropped. Nothing else changes. */
  function Update(p: Player, dt: real): (r: Player)
    ensures p.fireTimer > 0.0 ==> r.fireTimer == p.fireTimer - dt
    ensures p.fireTimer <= 0.0 ==> r.fireTimer == p.fireTimer
    ensures r.bullets == UpdateBullets(p.bullets)
    ensures r == p.(fireTimer := r.fireTimer, bullets := r.bullets)
    ensures Valid(p) ==> Valid(r)
  {
    var r := p.(fireTimer := TickTimer(p.fireTimer, dt), bullets := UpdateBullets(p.bullets));
    assert Valid(p) ==> Valid(r) by {
      if Valid(p) {
        forall j | 0 <= j < |r.bullets| ensures !IsZero(r.bullets[j].velocity) {
          SurvivorsAreAdvanced(p.bullets);
          assert r.bullets[j] in AdvanceAll(p.bullets);
        }
      }
    }
    r
  }

  /** The cooldown timer after a run of frames. */
  function TimerAfter(t: real, dts: seq<real>): real
    decreases |dts|
  {
    if dts == [] then t else TimerAfter(TickTimer(t, dts[0]), dts[1..])
  }

  function Sum(dts: seq<real>): real
    decreases |dts|
  {
    if dts == [] then 0.0 else dts[0] + Sum(dts[1..])
  }

  lemma {:induction false} SumNonNegative(dts: seq<real>)
    requires forall i | 0 <= i < |dts| :: dts[i] >= 0.0
    ensures Sum(dts) >= 0.0
    decreases |dts|
  {
    if dts != [] {
      SumNonNegative(dts[1..]);
    }
  }

  /** With non-negative frame times, a running cooldown `t` has expired after a
      run of frames exactly when the frames add up to at least `t`. */
  lemma {:induction false} TimerExpiresIff(t: real, dts: seq<real>)
    requires forall i | 0 <= i < |dts| :: dts[i] >= 0.0
    ensures TimerAfter(t, dts) <= 0.0 <==> t <= 0.0 || Sum(dts) >= t
    decreases |dts|
  {
    if dts == [] {
    } else if t <= 0.0 {
      TimerStaysExpired(t, dts);
    } else {
      SumNonNegative(dts[1..]);
      TimerExpiresIff(t - dts[0], dts[1..]);
    }
  }

  lemma {:induction false} TimerStaysExpired(t: real, dts: seq<real>)
    requires t <= 0.0
    ensures TimerAfter(t, dts) == t
    decreases |dts|
  {
    if dts != [] {
      TimerStaysExpired(t, dts[1..]);
    }
  }

  /** The player after a run of frames. */
  function Frames(p: Player, dts: seq<real>): Player
    decreases |dts|
  {
    if dts == [] then p else Frames(Update(p, dts[0]), dts[1..])
  }

  lemma {:induction false} FramesTimer(p: Player, dts: seq<real>)
    ensures Frames(p, dts).fireTimer == TimerAfter(p.fireTimer, dts)
    ensures Frames(p, dts).fireCooldown == p.fireCooldown
    decreases |dts|
  {
    if dts != [] {
      FramesTimer(Update(p, dts[0]), dts[1..]);
    }
  }

  /** Fire-rate limit: after a shot that fired, the next shot fires exactly
      when the frames since then add up to at least the cooldown of 0.5. */
  lemma NextShotAfterCooldown(p: Player, dts: seq<real>)
    requires CanFire(p) && p.fireCooldown == FireCooldown
    requires forall i | 0 <= i < |dts| :: dts[i] >= 0.0
    ensures CanFire(Frames(Shoot(p), dts)) <==> Sum(dts) >= FireCooldown
  {
    FramesTimer(Shoot(p), dts);
    TimerExpiresIff(FireCooldown, dts);
  }

  /** Shooting twice in the same frame fires once. */
  lemma ShootTwiceFiresOnce(p: Player)
    requires p.fireCooldown > 0.0
    ensures Shoot(Shoot(p)) == Shoot(p)
    ensures CanFire(p) ==> |Shoot(Shoot(p)).bullets| == |p.bullets| + 1
  {
  }

  /** The operations a caller can apply to a player. */
  datatype Action = MoveBy(input: Vec2) | Fire | Tick(dt: real) | Face(dir: Vec2) | PowerUp

  function Apply(p: Player, a: Action): Player {
    match a
    case MoveBy(input) => Move(p, input)
    case Fire => Shoot(p)
    case Tick(dt) => Update(p, dt)
    case Face(dir) => SetDirection(p, dir)
    case PowerUp => GivePowerUp(p)
  }

  function Run(p: Player, acts: seq<Action>): Player
    decreases |acts|
  {
    if acts == [] then p else Run(Apply(p, acts[0]), acts[1..])
  }

  /** Invariants kept by every sequence of operations: validity (nonzero
      facing, positive cooldown, nonzero bullet velocities), the power-up once
      granted, and the cooldown and speed constants. */
  lemma {:induction false} RunPreservesInvariants(p: Player, acts: seq<Action>)
    requires Valid(p)
    ensures Valid(Run(p, acts))
    ensures p.hasPowerUp ==> Run(p, acts).hasPowerUp
    ensures Run(p, acts).fireCooldown == p.fireCooldown && Run(p, acts).speed == p.speed
    decreases |acts|
  {
    if acts != [] {
      RunPreservesInvariants(Apply(p, acts[0]), acts[1..]);
    }
  }

  /** The direction an action turns the player to, if any. */
  function Turn(a: Action): Option<Vec2> {
    match a
    case MoveBy(v) => if IsZero(v) then None else Some(v)
    case Face(v) => if IsZero(v) then None else Some(v)
    case _ => None
  }

  /** The last nonzero direction requested in `acts`, or `d` if there is none. */
  function LastTurn(d: Vec2, acts: seq<Action>): Vec2
    decreases |acts|
  {
    if acts == [] then d
    else match Turn(acts[|acts| - 1])
      case Some(v) => v
      case None => LastTurn(d, acts[..|acts| - 1])
  }

  lemma {:induction false} RunSnoc(p: Player, acts: seq<Action>, a: Action)
    ensures Run(p, acts + [a]) == Apply(Run(p, acts), a)
    decreases |acts|
  {
    if acts == [] {
      assert [a][1..] == [];
    } else {
      assert (acts + [a])[1..] == acts[1..] + [a];
      RunSnoc(Apply(p, acts[0]), acts[1..], a);
    }
  }

  /** The player always faces the last nonzero direction it was asked to
      move or turn in, and its starting direction if there was none. */
  lemma {:induction false} FacingIsLastTurn(p: Player, acts: seq<Action>)
    ensures Run(p, acts).direction == LastTurn(p.direction, acts)
    decreases |acts|
  {
    if acts != [] {
      var init := acts[..|acts| - 1];
      var a := acts[|acts| - 1];
      assert acts == init + [a];
      RunSnoc(p, init, a);
      FacingIsLastTurn(p, init);
    }
  }
}
